=== FILE: README.md ===
# Scribble collaboration core, modelled in Dafny

Scribble is a collaborative document editor. It has an ASP.NET Core backend with a SignalR hub, and a Next.js frontend.
This project models the rule sets at the heart of the system as pure state transitions over immutable data, and proves properties of them:

- **`Hub`** models the real-time collaboration hub (`DocumentHub`). Its state has three parts:
  - the room registry (`DocumentUsers`);
  - the framework's group membership;
  - the connection-to-user index.

  The six entry points each return the new state together with the messages they send, as (event, recipients, payload).
- **`Store`** models the relational store as maps from ids to rows. It carries the schema's uniqueness, length and reference rules as the invariant `Valid`, and its cascading deletes as functions.
- **`Documents`** models the document service:
  - ownership, and read and edit access;
  - the five-documents-per-owner cap;
  - the 50,000-character content cap;
  - the share upsert;
  - the owner-only operations;
  - the owner and shared listings, newest update first.
- **`AIUsage`** models the daily AI quota counter, one record per (user, day).
- **`AIEndpoints`** models the check → call → record → report protocol the four AI endpoints share, and the remaining-calls endpoint.
- **`Auth`** models three parts of the authentication service:
  - registration with unique usernames and e-mails;
  - login by username or e-mail;
  - the token blacklist used for logout.
- **`Gate`** models the revocation middleware with its `/hubs` exemption, and the JWT handler's rule that takes the token from the query on hub paths. It also models the order of the two.
- **`RegisterValidation`** models the validation attributes of the registration request.
- **`HubClient`** models the browser's hub session (`DocumentHubService`) as a state machine over the connection state the client library reports.
- **`Colors`** models the user-colour hash of the frontend, with JavaScript's 32-bit shift written out.
- **Support modules:**
  - `Wrappers` holds `Option`.
  - `Text` holds UTF-16 lengths and code units, and `char.IsWhiteSpace`.
  - `Paths` holds `StartsWithSegments`, the ordinal `StartsWith`, and `Replace(old, "")`.

Conventions:

- **Times and days are parameters.** This covers `DateTime.UtcNow` and the day the quota is counted in.
- **Outside results are parameters.** This covers the AI service's answer, password hashing and verification, reading a JWT's expiry, and whether a client-side start or invoke succeeds.
- **New ids are parameters.** A fresh database id is passed in by the caller.
- **Unspecified orders are parameters.** When the code's outcome depends on an order the platform does not specify, that order is a parameter (`order: seq<…>`), and lemmas quantify over it. Two places do this: the enumeration of the room dictionary on disconnect, and the table order of `FirstOrDefault` on login.
- **Lengths follow each runtime.** .NET and JavaScript lengths count UTF-16 code units (`Text.Utf16Length`). PostgreSQL `varchar(n)` columns count characters (`|s|`).

Four places where the code behaves differently from what a reader might expect, and the model follows the code:

- **Snapshot.** The `CurrentUsers` snapshot is not deduplicated per user (`Hub.SnapshotNotDeduplicated`).
- **Leave.** `LeaveDocument` never deletes an emptied room (`Hub.LeaveKeepsEmptyRoom`). It also sends `UserLeft` whenever the room key exists, whether or not the caller was a member.
- **Index.** The index is filled when a connection is made, not when it joins a room.
- **Disconnect.** Disconnect cleans only one room (see Findings). It notifies even when the index has no entry, with a null user id.

## Model

| member | source | states |
|---|---|---|
| Hub.Connect | backend/Hubs/DocumentHub.cs:14-25 | A connection with a NameIdentifier claim is indexed under that user. Without the claim the index is unchanged. No other connection's entry, no room and no group changes, and nothing is sent. |
| Hub.FirstRoomContaining | backend/Hubs/DocumentHub.cs:32-35 | The room chosen holds the connection, and no room earlier in the enumeration order does. None exactly when no room holds it. |
| Hub.Disconnect | backend/Hubs/DocumentHub.cs:27-61 | Whatever the enumeration order: the index entry and every group membership of the connection go. If the connection is in some room, exactly one such room loses it, and that room is deleted if emptied. Exactly one `UserLeft` then goes to that room's group. Otherwise rooms are untouched and nothing is sent. |
| Hub.DisconnectCanPickAnyRoom | backend/Hubs/DocumentHub.cs:32-56 | Every room holding the connection is the one cleaned under some enumeration order, so which room is cleaned is the dictionary's choice. |
| Hub.DisconnectOutsideRooms | backend/Hubs/DocumentHub.cs:32-59 | A connection in no room loses only its index entry and group memberships, and no `UserLeft` is sent. |
| Hub.DisconnectLeavesStaleMember | backend/Hubs/DocumentHub.cs:55 | A connection in two rooms is still recorded in the second room after disconnecting, and that room is not deleted. The next connection to join that room gets the dead connection in its `CurrentUsers` snapshot, with a null user id. |
| Hub.DisconnectBreaksRoomsWithinGroups | backend/Hubs/DocumentHub.cs:55 | The disconnect as written can leave a room recording a connection that no group holds. |
| Hub.CleanRooms | backend/Hubs/DocumentHub.cs:32-57 | The loop without the early exit takes the connection out of every listed room that holds it. Rooms without it are untouched, an emptied room is deleted, and it sends nothing exactly when no listed room held the connection. |
| Hub.CleanRoomsCleansEach | backend/Hubs/DocumentHub.cs:36-52 | Each listed room holding the connection keeps all its other members, and is deleted only when the connection was its last member. |
| Hub.CleanRoomsSendsEach | backend/Hubs/DocumentHub.cs:38-47 | Exactly one `UserLeft` is sent per listed room holding the connection, in list order, each to that room's group with the connection's user id and display name. |
| Hub.DisconnectAll | backend/Hubs/DocumentHub.cs:27-61 | The corrected disconnect leaves the connection in no room, no group and not in the index. Rooms that did not hold it are unchanged. Every room that held it keeps its other members and is deleted only if the connection was its last member. Exactly one `UserLeft` is sent per room that held it, in enumeration order. |
| Hub.DisconnectAllLeavesNoStaleMember | backend/Hubs/DocumentHub.cs:88-96 | After the corrected disconnect, no later joiner of any room receives the dead connection in its snapshot. |
| Hub.CleanRoomsShrinks | backend/Hubs/DocumentHub.cs:36-52 | The corrected loop only ever removes connections from existing rooms. |
| Hub.DisconnectAllKeepsRoomsWithinGroups | backend/Hubs/DocumentHub.cs:27-61 | The corrected disconnect keeps every connection recorded in a room inside that document's group. |
| Hub.SnapshotOf | backend/Hubs/DocumentHub.cs:88-96 | A snapshot entry exists exactly for each other connection, with the user id from the index (null when absent) and the display name "User". |
| Hub.Join | backend/Hubs/DocumentHub.cs:63-99 | The caller enters the group and the room, and the room is created if absent. No other room changes and the index is unchanged. `UserJoined` goes to every other member of the group and never to the caller. The caller alone receives `CurrentUsers`, with an entry for each other connection in the room. |
| Hub.SnapshotSize | backend/Hubs/DocumentHub.cs:88-96 | The snapshot has one entry per connection it is built from. |
| Hub.JoinSnapshotSize | backend/Hubs/DocumentHub.cs:88-98 | The joiner's snapshot has exactly as many entries as there are other connections in the room, and never includes the joiner. |
| Hub.SnapshotNotDeduplicated | backend/Hubs/DocumentHub.cs:88-96 | Two connections of the same user in the room give two snapshot entries with that user id. |
| Hub.JoinIdempotent | backend/Hubs/DocumentHub.cs:66-73 | Joining the same room twice leaves room and group membership as after the first join. |
| Hub.Leave | backend/Hubs/DocumentHub.cs:101-119 | The caller always leaves the group. If the room key exists, the caller is removed from that room's set and `UserLeft` goes to the remaining group, whether or not the caller was a member. The key set of rooms never changes and nothing else changes. |
| Hub.LeaveKeepsEmptyRoom | backend/Hubs/DocumentHub.cs:105-108 | The last member leaving leaves the room behind with an empty set. |
| Hub.JoinThenLeave | backend/Hubs/DocumentHub.cs:63-119 | Leaving a room just joined restores groups, index and other rooms. Only a room the join created stays behind, empty. |
| Hub.SendContentChange | backend/Hubs/DocumentHub.cs:121-135 | The change goes to the document's group minus the sender. It carries the sender's claims and the server time, and the registry is unchanged. |
| Hub.SendCursorPosition | backend/Hubs/DocumentHub.cs:137-148 | The position goes to the document's group minus the sender, with the sender's claims, and the registry is unchanged. |
| Hub.EntryPointsKeepRoomsWithinGroups | backend/Hubs/DocumentHub.cs:14-148 | Connect, join, leave and both relays preserve the invariant that every connection recorded in a room is in that document's group. |
| Hub.ReplayMembership | backend/Hubs/DocumentHub.cs:63-119 | After any run of joins and leaves on one room, a connection is in the room, and in its group, exactly when its last operation was a join, or when it did nothing and was there before. The room exists exactly when it existed before or someone joined. |
| Store.Valid | backend/Data/ApplicationDbContext.cs:29-81 | The rules the schema enforces: usernames and e-mails unique, one share per (document, user) and one version per (document, number); every document's owner, every share's document and user, and every version's document exist; username at most 15, e-mail 30, display name 100 and title 255 characters. |
| Store.DeleteDocument | backend/Data/ApplicationDbContext.cs:58-81 | Deleting a document removes exactly it, the shares of it and the versions of it. Users are untouched, and every row that is kept is unchanged. |
| Store.DeleteDocumentKeepsValid | backend/Data/ApplicationDbContext.cs:58-81 | The cascade keeps the store valid: no share or version is left pointing at the deleted document. |
| Store.DeleteUser | backend/Data/ApplicationDbContext.cs:44-67 | Deleting a user removes the user, the documents they own, every share granted to them, and the shares and versions of their documents. Every row that is kept is unchanged. |
| Store.DeleteUserKeepsValid | backend/Data/ApplicationDbContext.cs:44-67 | The cascade keeps the store valid: no document, share or version is left pointing at the deleted user or at a document deleted with them. |
| Documents.CountPlainTextCharacters | backend/Services/DocumentService.cs:193-197 | The stored count is the content's length in UTF-16 code units, never less than its number of characters. |
| Documents.CreateDocument | backend/Services/DocumentService.cs:19-42 | Refused, with the store unchanged, exactly when the owner already has five documents. Otherwise exactly one document is added, owned by the caller, with content "{}" and count 0. Nothing else changes and the store stays valid. |
| Documents.CreateKeepsCap | backend/Services/DocumentService.cs:21-26 | Starting within the cap, creation never takes an owner past five documents. |
| Documents.CanRead | backend/Services/DocumentService.cs:80-87 | A user may read an existing document exactly when they own it or hold a share of any permission on it. |
| Documents.CanEdit | backend/Services/DocumentService.cs:113-120 | A user may edit an existing document exactly when they own it or hold an Edit share on it. |
| Documents.GetDocumentById | backend/Services/DocumentService.cs:68-101 | The document is returned exactly to its owner and to holders of any share on it, and is null otherwise. |
| Documents.UpdateDocument | backend/Services/DocumentService.cs:104-148 | Succeeds exactly for the owner or an Edit-share holder, and only with content of at most 50,000 UTF-16 units. Content over the cap rejects the whole request, title included, and nothing changes. On success only that document changes: the given title and content are applied, the count is the content's length, and the update time is now. |
| Documents.ReadShareCannotUpdate | backend/Services/DocumentService.cs:113-120 | A non-owner holding only Read shares is refused and the store is unchanged. |
| Documents.DeleteDocumentAsOwner | backend/Services/DocumentService.cs:151-164 | True exactly for the owner, and the document goes together with its shares and versions. Otherwise false and nothing changes. |
| Documents.FindUserByUsername | backend/Services/DocumentService.cs:210-212 | Returns the user with that username, or None exactly when no user has it. |
| Documents.FindShare | backend/Services/DocumentService.cs:232-233 | Returns the share of the document held by the user, or None exactly when there is none. |
| Documents.UpdateSharePermission | backend/Services/DocumentService.cs:235-241 | The existing share gets the new permission in place. The share keys are unchanged and the pair still has exactly one share. |
| Documents.AddShare | backend/Services/DocumentService.cs:243-255 | Exactly one share is added for the pair, under the new key, and every other share is kept. |
| Documents.UpsertShare | backend/Services/DocumentService.cs:231-255 | Afterwards the pair has exactly one share, holding the requested permission. That share is the existing one when there was one, and otherwise a new key. Every other share is kept. |
| Documents.UpsertShareKeepsValid | backend/Data/ApplicationDbContext.cs:55 | The upsert keeps the store valid, in particular one share per (document, user). |
| Documents.ShareDocument | backend/Services/DocumentService.cs:199-256 | Succeeds exactly when the caller owns the document, the username exists, it is not the caller, and the permission parsed. A refusal changes nothing. On success the pair has exactly one share with the requested permission. |
| Documents.ShareTwiceKeepsOneShare | backend/Services/DocumentService.cs:231-241 | Sharing again with the same user updates the permission in place and adds no share. |
| Documents.GetDocumentShares | backend/Services/DocumentService.cs:258-273 | The owner sees exactly the document's shares, and anyone else sees none. |
| Documents.RemoveShare | backend/Services/DocumentService.cs:275-298 | True exactly when the caller owns the document and the user holds a share on it, which is then removed with nothing else changed. Otherwise false and nothing changes. |
| Documents.InsertByUpdated | backend/Services/DocumentService.cs:50 | Inserting into a list sorted newest first keeps it sorted and distinct, and adds exactly the new id. |
| Documents.ListByUpdatedDesc | backend/Services/DocumentService.cs:47-51 | Lists exactly the wanted documents, once each, ordered by update time descending. |
| Documents.GetUserDocuments | backend/Services/DocumentService.cs:45-65 | Returns exactly the caller's own documents, once each, each as the store's view of that row, ordered by the stored update time, newest first. |
| Documents.GetSharedDocuments | backend/Services/DocumentService.cs:300-312 | Returns exactly the documents shared with the caller, once each, each as the store's view of that row, ordered by the stored update time, newest first. |
| AIUsage.CanUseAIFeature | backend/Services/AIUsageService.cs:15-28 | With no record today the call is allowed. With a record it is allowed exactly while fewer than five calls are recorded. |
| AIUsage.GetRemainingCalls | backend/Services/AIUsageService.cs:30-43 | Five with no record today, otherwise never negative and at most five. Positive exactly when a call is allowed. Remaining plus calls made is five while the count is within the limit. |
| AIUsage.IncrementUsage | backend/Services/AIUsageService.cs:45-70 | Creates today's record with one call and the feature, or adds exactly one call and keeps its feature. Every other (user, day) record is untouched. |
| AIUsage.IncrementUsesOneCall | backend/Services/AIUsageService.cs:15-70 | An allowed increment keeps every count within 1..5 and lowers the remaining calls by exactly one. |
| AIUsage.FeatureFixedAtCreation | backend/Services/AIUsageService.cs:52-67 | Once today's record exists, any number of increments adds that many calls and never changes its feature. |
| AIEndpoints.Endpoint | backend/Controllers/AIController.cs:34-67 | 429 exactly when the quota is spent, with no AI call and no usage change. 500 exactly when the AI fails, with usage unchanged. On success usage is incremented once under the endpoint's tag, and the reported remaining value is read after that increment. |
| AIEndpoints.RemainingEndpoint | backend/Controllers/AIController.cs:25-32 | Reports exactly the usage service's remaining calls for today with limit 5. That value is never negative and is positive exactly when a call is allowed. |
| AIEndpoints.EndpointsDifferOnlyInTag | backend/Controllers/AIController.cs:34-195 | Any two endpoints give the same response and the same counts. Their usage differs at most in the feature of a record created by that call. |
| AIEndpoints.SuccessReportsOneFewer | backend/Controllers/AIController.cs:56-60 | A successful call reports one fewer remaining call than the remaining endpoint reported before it. |
| AIEndpoints.ServeDayWithinQuota | backend/Controllers/AIController.cs:39-60 | However many requests one user makes in a day, served one at a time, at most the calls remaining at the start succeed, and every count stays within 1..5. |
| AIEndpoints.FiveCallsPerDay | backend/Controllers/AIController.cs:42-45 | A user starts a day with no calls recorded and at most five calls succeed. |
| RegisterValidation.IsValid | backend/DTO/Auth/RegisterRequest.cs:7-20 | Required on all four fields; username 3..15 and password 8..100 UTF-16 units; e-mail at most 30 with the one-inner-'@' rule; display name only Required. |
| RegisterValidation.IsEmailAddressMeansOneInnerAt | backend/DTO/Auth/RegisterRequest.cs:12 | The e-mail attribute accepts exactly the strings with one '@', having characters on both sides. |
| RegisterValidation.ValidRequestBounds | backend/DTO/Auth/RegisterRequest.cs:7-20 | A valid request has all four fields present. The username has 3..15 UTF-16 units, the e-mail at most 30 with one inner '@', the password 8..100, and the display name is non-empty. |
| RegisterValidation.ValidRequestMayNotFit | backend/DTO/Auth/RegisterRequest.cs:20 | A request with a 101-character display name passes validation, yet the user row it describes does not fit its columns. |
| RegisterValidation.ValidForSchemaFits | backend/Data/ApplicationDbContext.cs:31-33 | With the display name bounded by 100, every valid request describes a user row that fits the user table's columns. |
| Auth.Register | backend/Services/AuthService.cs:53-94 | Refused, with the store unchanged, exactly when the username or the e-mail is taken. Otherwise exactly one user is added with the given names and the password's hash, unless the row does not fit its columns, in which case nothing is stored. The store stays valid. |
| Auth.AddUserKeepsValid | backend/Data/ApplicationDbContext.cs:29-33 | A user with an unused username and e-mail and fitting columns can be added without breaking the store's invariants. |
| Auth.RegisteredNamesAreUnique | backend/Services/AuthService.cs:55-64 | After a registration, the new user is the only holder of that username and of that e-mail. |
| Auth.RegisterTwiceRefused | backend/Services/AuthService.cs:55-64 | A second registration reusing the username or the e-mail is refused and changes nothing. |
| Auth.ValidRequestCanFailInStore | backend/DTO/Auth/RegisterRequest.cs:20 | A request that passes validation, for free names, is refused by the store because of its display name. |
| Auth.SchemaValidRequestRegisters | backend/Services/AuthService.cs:53-94 | With the display name bounded, a valid request for free names always registers. |
| Auth.FirstMatch | backend/Services/AuthService.cs:99-102 | Returns the first user in table order whose username or e-mail is the key, or None exactly when none matches. |
| Auth.Login | backend/Services/AuthService.cs:96-126 | Succeeds only for a user matching the key by username or e-mail whose stored hash verifies the password. It fails when no user matches. When some user matches, it succeeds exactly when the first match in table order verifies, and the user it returns is that first match. |
| Auth.LoginIndependentOfOrder | backend/Services/AuthService.cs:99-102 | When exactly one user matches the key, the table's order does not affect the result. |
| Auth.LoginKeyCanBeAmbiguous | backend/Services/AuthService.cs:99-102 | In a valid store, one user's username can be another's e-mail. Then the table order decides whose password is checked. |
| Auth.IsTokenBlacklisted | backend/Services/AuthService.cs:163-166 | A token is blacklisted exactly when an entry with that token text is stored. |
| Auth.BlacklistToken | backend/Services/AuthService.cs:128-161 | An unreadable token gives false and no change. Otherwise the answer is true exactly when the token is already present or fits its 500-character column. On true the token is blacklisted. No other token's status changes and no existing entry is altered. |
| Auth.BlacklistIdempotent | backend/Services/AuthService.cs:137-142 | Blacklisting the same token again, at any later time, changes nothing and gives the same answer. |
| Auth.BlacklistOnlyGrows | backend/Services/AuthService.cs:128-166 | A blacklisted token stays blacklisted through any later blacklisting. |
| Gate.BlacklistMiddleware | backend/Middleware/TokenBlacklistMiddleware.cs:15-45 | Under `/hubs` nothing is looked up and the request goes on. Otherwise a lookup happens exactly when the header starts with "Bearer ", using the header with every "Bearer " removed. The request is refused with 401 exactly when the looked-up token is blacklisted. |
| Gate.TokenFromQuery | backend/Program.cs:107-120 | The query value becomes the token exactly when it is present and non-empty and the path is under `/hubs`. |
| Gate.Pipeline | backend/Program.cs:146-147 | A request is rejected exactly when the middleware revokes it. Otherwise authentication gets the query token when the hook chose one, else the header's token. |
| Gate.HubPathUnderHubs | backend/Program.cs:151 | The hub's mapped path lies under `/hubs`. |
| Gate.SegmentBoundary | backend/Program.cs:114 | Matching is by segment: `/hubsx` is not under `/hubs`, while `/hubs` itself is. |
| Gate.SegmentMatchIgnoresCase | backend/Middleware/TokenBlacklistMiddleware.cs:19 | Segment matching ignores case, so `/HUBS/document` is exempt too. |
| Gate.HubQueryTokenNotRevocationChecked | backend/Middleware/TokenBlacklistMiddleware.cs:18-23 | A query token on the hub's path reaches authentication with no blacklist lookup, whatever the header says. |
| Gate.RevokedBearerRejected | backend/Middleware/TokenBlacklistMiddleware.cs:28-41 | Outside `/hubs`, a header "Bearer t" with t blacklisted is rejected before authentication. |
| Gate.BearerTokenIsRest | backend/Middleware/TokenBlacklistMiddleware.cs:30 | A header "Bearer t" yields exactly t when t holds no further "Bearer ". |
| Gate.EveryBearerRemoved | backend/Middleware/TokenBlacklistMiddleware.cs:30 | Every occurrence is removed, not only the prefix: "Bearer abBearer cd" is looked up as "abcd". |
| Paths.StartsWithSegments | backend/Middleware/TokenBlacklistMiddleware.cs:19 | A path lies under a base exactly when it begins with the base, ignoring case, and the match ends at the end of the path or right before a '/'. The hub hook at backend/Program.cs:114 uses the same test. |
| Paths.RemoveAll | backend/Middleware/TokenBlacklistMiddleware.cs:30 | Removing a pattern never lengthens a string. |
| Paths.RemoveAllKeepsFirst | backend/Middleware/TokenBlacklistMiddleware.cs:30 | A first character that does not start an occurrence is kept, and the rest is processed as if it stood alone. |
| Paths.RemoveAllAbsent | backend/Middleware/TokenBlacklistMiddleware.cs:30 | Removing a pattern that does not occur leaves the string unchanged. |
| Paths.RemoveAllLeading | backend/Middleware/TokenBlacklistMiddleware.cs:30 | A leading occurrence is removed and the rest is processed as if it stood alone. |
| Paths.UnderLongerBase | backend/Program.cs:114 | A path under `base/…` is under `base`. |
| HubClient.Connect | frontend/src/lib/signalr.ts:8-51 | When already connected nothing happens. Otherwise any old connection is stopped, and a new one with the token is built and started. The new one is connected exactly when the start succeeded, and the call throws otherwise. The recorded document is kept. |
| HubClient.Disconnect | frontend/src/lib/signalr.ts:53-63 | Connection and document are always cleared and nothing throws. The old connection is stopped exactly when it existed and was not already disconnected. |
| HubClient.JoinDocument | frontend/src/lib/signalr.ts:65-75 | When not connected it throws and nothing changes. Otherwise the document is recorded before the invoke, and stays recorded even if the invoke fails. |
| HubClient.LeaveDocument | frontend/src/lib/signalr.ts:77-89 | When not connected it silently does nothing. Otherwise it invokes the leave, clears the document only if the invoke succeeded, and never throws. |
| HubClient.SendContentChange | frontend/src/lib/signalr.ts:91-109 | Nothing is sent unless connected with a non-empty document recorded, and the change always targets the recorded document. The session is unchanged. |
| HubClient.SendCursorPosition | frontend/src/lib/signalr.ts:111-123 | Nothing is sent unless connected, and the position goes to the document the caller names. |
| HubClient.JoinThenSendTargetsJoined | frontend/src/lib/signalr.ts:65-109 | After a join on a live connection, content changes go to the joined document over that connection. |
| HubClient.NothingAfterDisconnect | frontend/src/lib/signalr.ts:53-123 | After disconnect no call reaches the hub, and a join throws. |
| HubClient.ReconnectKeepsStaleDocument | frontend/src/lib/signalr.ts:29-51 | A reconnect keeps the old document recorded, so content changes go to it over the new connection without a new join. |
| HubClient.EmptyDocumentIdBlocksContent | frontend/src/lib/signalr.ts:95-101 | Joining the empty document id invokes the join, but content changes are then never sent. |
| HubClient.OperationsKeepWellformed | frontend/src/lib/signalr.ts:29-51 | Every operation keeps the held connection among those the session built, and connection ids are never reused. |
| Colors.ToInt32 | frontend/src/lib/colors.ts:4 | The 32-bit conversion lands in [-2^31, 2^31) and is congruent to its input modulo 2^32. |
| Colors.JsRemainder360 | frontend/src/lib/colors.ts:8 | JavaScript's `% 360` lies strictly between -360 and 360, is congruent to the dividend, and takes the dividend's sign. |
| Colors.HueOfHash | frontend/src/lib/colors.ts:8 | The hue lies in 0..359. It is the hash's magnitude modulo 360. |
| Colors.Hue | frontend/src/lib/colors.ts:1-8 | Every id's hue is an integer in 0..359. |
| Colors.Decimal | frontend/src/lib/colors.ts:11 | The printed hue is a non-empty run of decimal digits, with a leading zero only for zero itself. |
| Colors.DecimalRoundTrip | frontend/src/lib/colors.ts:11 | Reading back the printed numeral gives the number printed. |
| Colors.GetUserColor | frontend/src/lib/colors.ts:1-12 | The hash loop over the id's UTF-16 code units yields exactly `hsl(` followed by the id's hue and `, 70%, 50%)`, a pure function of the id. |
| Colors.ColorReadsBack | frontend/src/lib/colors.ts:11 | The colour string starts with `hsl(`, ends with `, 70%, 50%)`, and holds between them the digits of the id's hue, a number in 0..359. |
| Colors.EmptyIdHue | frontend/src/lib/colors.ts:2-8 | The empty id gets hue 0. |
| Colors.SingleCharHue | frontend/src/lib/colors.ts:3-8 | A one-character id in the Basic Multilingual Plane gets its character code modulo 360. |
| Colors.ShiftLeft5Small | frontend/src/lib/colors.ts:4 | Where it does not overflow, the shift multiplies by 32. |
| Colors.MixBound | frontend/src/lib/colors.ts:4 | One round moves the hash by at most 2^31 + 65535. |
| Colors.HashBound | frontend/src/lib/colors.ts:3-5 | After n code units the hash is within n·(2^31 + 65535) of zero. Below four million code units every intermediate value is therefore an integer under 2^53, where JavaScript's arithmetic is exact. |
| Text.Utf16Length | backend/Services/DocumentService.cs:196 | The UTF-16 length lies between the number of characters and twice it. It equals the number of characters when all lie in the Basic Multilingual Plane. |
| Text.CodeUnits | frontend/src/lib/colors.ts:3-4 | The code-unit sequence has the UTF-16 length, and each unit lies in 0..65535. |
| Text.AstralIsSurrogatePair | frontend/src/lib/colors.ts:4 | A character above U+FFFF becomes a high and a low surrogate that together decode back to it. |
| Text.CodeUnitsAppend | frontend/src/lib/colors.ts:3-5 | The code units of a concatenation are the concatenation of the code units. |

## Left out

- Concurrency is not modelled: the hub's static dictionaries, its asynchronous sends, the client's shared `connectPromise`, and the non-atomic check-then-increment of the AI endpoints. Every operation runs alone and in full, so races between requests are outside the model.
- Entity Framework persistence is reduced to maps: queries, `SaveChangesAsync`, the migrations, and database-generated ids (a fresh id is a parameter). The clock is not modelled either; times and days are parameters.
- JWT creation and validation, and BCrypt hashing and verification, are not modelled. The hash, the verify predicate and the expiry reader are parameters.
- `Enum.TryParse<Permission>` (case-sensitive) is not modelled. Its outcome is the parameter `Option<Permission>`. Accepted numeric strings and comma lists are mapped to Read or Edit. An out-of-range number such as "7" is stored as neither, and every access check in the service (backend/Services/DocumentService.cs:80-87, :115) treats it like Read.
- `Paths.FoldCase` folds ASCII letters only, where `OrdinalIgnoreCase` also folds other scripts. Hub paths and `/hubs` are ASCII.
- `Paths.StartsWith` is ordinal, while the middleware's `StartsWith("Bearer ")` is culture-sensitive. The two agree on this ASCII prefix except for ignorable characters.
- RegisterValidation.IsEmailAddress models only the framework's '@' index rule, not any extra checks a framework version may add.
- Documents.CreateDocument and Documents.UpdateDocument require the title bounds of their request types (backend/DTO/Documents/CreateDocumentRequest.cs:7-9, backend/DTO/Documents/UpdateDocumentRequest.cs:7), because controller model validation rejects other titles before the service runs.
- The StringValues of a header or query with several values are not modelled. The header is one string ("" when absent) and the query value is one optional string.
- Exceptions in the AI endpoints are not modelled. Only the AI service's null answer, the 500 path, is.
- `AIUsage.IncrementUsage` does not model 32-bit wrap-around of `CallsToday`, because the check before each increment keeps the count at most 5 (`AIUsage.IncrementUsesOneCall`).
- The `(UserId, Date)` index on the usage table is not unique. Run sequentially, the service keeps one record per key, and the map models exactly that.
- `Colors.ShiftLeft5` states only its range, not its congruence to 32·x modulo 2^32. `Colors.ShiftLeft5Small` gives the exact value where no wrap-around occurs.
- `Colors.Hash` does not model floating-point rounding. `Colors.HashBound` shows that rounding cannot occur for ids below four million code units.
- The frontend's event listeners (`onUserJoined` and the rest), the automatic-reconnect policy and the hub URL construction are not modelled. The connection state is whatever the library reports.
- `Hub.Disconnect` drops the connection from every group at once. The framework does this after the handler returns, and the handler's `UserLeft` to the dying connection itself is not delivered, so its recipients exclude it.
- `Auth.Login` and `Hub.Disconnect` take the platform's enumeration order as a parameter. The lemmas about them hold for every order, or show that the order matters.
- `AIEndpoints.Endpoint` reads one `today` for the whole request. The controller reads the date three times: for the quota check, the increment and the remaining count. A request that spans midnight can use different days for these, and the model does not cover that.
- Token creation in register and login is not modelled: the responses carry a JWT, and the model returns the user id.

## Findings

| source | as written | input that shows it | evidently intended | confidence | as-written member | corrected member |
|---|---|---|---|---|---|---|
| backend/Hubs/DocumentHub.cs:55 | The disconnect handler stops at the first room holding the connection. | Join rooms "a" and "b" on one connection, then drop it. Room "b" still records the dead connection and is never deleted. The next connection to join "b" is told, in `CurrentUsers`, that the dead connection is present. | Remove the connection from every room that holds it, notifying each room, so that no room keeps a dead connection. | not executed | Hub.DisconnectLeavesStaleMember | Hub.DisconnectAll |
| backend/DTO/Auth/RegisterRequest.cs:20 | DisplayName has no length bound, while its column holds 100 characters. | A request ("ann", "a@b.c", "password", 101 × 'x') passes validation, and the save then fails. | Bound DisplayName by 100 in validation, so a valid request for free names always registers. | not executed | Auth.ValidRequestCanFailInStore | Auth.SchemaValidRequestRegisters |

=== FILE: aiendpoints.dfy ===
/**
 * The four AI endpoints (grammar, summarize, improve, generate) and the
 * remaining-calls endpoint. Each AI endpoint checks the quota, calls the AI
 * service, records the call and reports the calls left. The AI service's
 * answer is a parameter: `None` when it failed and returned null.
 */
module AIEndpoints {
  import opened Wrappers
  import opened Store
  import opened AIUsage

  datatype Feature = Grammar | Summarize | Improve | Generate

  /** The feature tag each endpoint records. */
  function Tag(f: Feature): (t: string)
    ensures |t| > 0
  {
    match f
    case Grammar => "grammar"
    case Summarize => "summarize"
    case Improve => "improve"
    case Generate => "generate"
  }

  datatype Response =
    | LimitReached                             // 429
    | Unavailable                              // 500
    | Ok(result: string, remaining: int)       // 200

  function StatusCode(r: Response): int {
    match r
    case LimitReached => 429
    case Unavailable => 500
    case Ok(_, _) => 200
  }

  /** The endpoint's answer, the usage afterwards, and whether the AI service was called. */
  datatype Exchange = Exchange(usage: Usage, response: Response, aiCalled: bool)

  /**
   * The shared protocol: refuse with 429 when the quota is spent (no AI call,
   * no usage change); otherwise call the AI; a failed call gives 500 and no
   * usage change; a successful one is recorded once under the endpoint's
   * tag and the calls left are read after recording it.
   */
  function Endpoint(usage: Usage, u: UserId, today: Day, f: Feature, ai: Option<string>): (x: Exchange)
    ensures x.response.LimitReached? <==> !CanUseAIFeature(usage, u, today)
    ensures x.response.LimitReached? ==> x.usage == usage && !x.aiCalled
    ensures !x.response.LimitReached? ==> x.aiCalled
    ensures x.response.Unavailable? <==> CanUseAIFeature(usage, u, today) && ai.None?
    ensures x.response.Unavailable? ==> x.usage == usage
    ensures x.response.Ok? ==>
              && ai.Some? && x.response.result == ai.value
              && x.usage == IncrementUsage(usage, u, today, Tag(f))
              && x.response.remaining == GetRemainingCalls(x.usage, u, today)
  {
    if !CanUseAIFeature(usage, u, today) then Exchange(usage, LimitReached, false)
    else match ai
      case None => Exchange(usage, Unavailable, true)
      case Some(result) =>
        var usage' := IncrementUsage(usage, u, today, Tag(f));
        Exchange(usage', Ok(result, GetRemainingCalls(usage', u, today)), true)
  }

  /** GET remaining: the calls left today and the limit of five; nothing changes. */
  function RemainingEndpoint(usage: Usage, u: UserId, today: Day): (r: (int, int))
    ensures r == (GetRemainingCalls(usage, u, today), DailyLimit)
    ensures r.0 > 0 <==> CanUseAIFeature(usage, u, today)
    ensures 0 <= r.0
  {
    (GetRemainingCalls(usage, u, today), 5)
  }

  /** The endpoints differ only in the tag: same responses, and usage differing at most in a newly created record's feature. */
  lemma EndpointsDifferOnlyInTag(usage: Usage, u: UserId, today: Day, f: Feature, g: Feature, ai: Option<string>)
    ensures var x := Endpoint(usage, u, today, f, ai);
            var y := Endpoint(usage, u, today, g, ai);
            && x.response == y.response && x.aiCalled == y.aiCalled
            && x.usage.Keys == y.usage.Keys
            && (forall k :: k in x.usage ==> x.usage[k].callsToday == y.usage[k].callsToday)
            && (forall k :: k in x.usage && x.usage[k].feature != y.usage[k].feature ==>
                  k == (u, today) && k !in usage)
  {
  }

  /** A successful call reports one call fewer than the remaining endpoint reported before it. */
  lemma SuccessReportsOneFewer(usage: Usage, u: UserId, today: Day, f: Feature, result: string)
    requires WithinQuota(usage)
    ensures var x := Endpoint(usage, u, today, f, Some(result));
            x.response.Ok? ==> x.response.remaining == RemainingEndpoint(usage, u, today).0 - 1
  {
    if CanUseAIFeature(usage, u, today) {
      IncrementUsesOneCall(usage, u, today, Tag(f));
    }
  }

  /** One request of a day: the endpoint called and the AI service's answer. */
  datatype Request = Request(feature: Feature, ai: Option<string>)

  /** Serve requests of one user on one day in order; the usage after them and the number answered 200. */
  function ServeDay(usage: Usage, u: UserId, today: Day, reqs: seq<Request>): (r: (Usage, nat))
    decreases |reqs|
  {
    if reqs == [] then (usage, 0)
    else
      var x := Endpoint(usage, u, today, reqs[0].feature, reqs[0].ai);
      var rest := ServeDay(x.usage, u, today, reqs[1..]);
      (rest.0, rest.1 + if x.response.Ok? then 1 else 0)
  }

  /**
   * However many requests arrive, served one at a time, at most the calls
   * left at the start of the day are answered, and the quota invariant holds
   * throughout.
   */
  lemma {:induction false} ServeDayWithinQuota(usage: Usage, u: UserId, today: Day, reqs: seq<Request>)
    requires WithinQuota(usage)
    ensures WithinQuota(ServeDay(usage, u, today, reqs).0)
    ensures ServeDay(usage, u, today, reqs).1 <= GetRemainingCalls(usage, u, today)
    decreases |reqs|
  {
    if reqs != [] {
      var x := Endpoint(usage, u, today, reqs[0].feature, reqs[0].ai);
      if x.response.Ok? {
        IncrementUsesOneCall(usage, u, today, Tag(reqs[0].feature));
      }
      ServeDayWithinQuota(x.usage, u, today, reqs[1..]);
    }
  }

  /** A fresh day allows at most five successful calls. */
  lemma FiveCallsPerDay(usage: Usage, u: UserId, today: Day, reqs: seq<Request>)
    requires WithinQuota(usage) && (u, today) !in usage
    ensures ServeDay(usage, u, today, reqs).1 <= DailyLimit
  {
    ServeDayWithinQuota(usage, u, today, reqs);
  }
}

=== FILE: aiusage.dfy ===
/**
 * The daily AI quota: one usage record per (user, day) holding the number of
 * calls made that day and the feature of the day's first call. A user may
 * call while fewer than five calls are recorded for today. The day is a
 * parameter: the service reads the clock, the model does not.
 */
module AIUsage {
  import opened Store

  type Day = int

  datatype UsageRecord = UsageRecord(callsToday: int, feature: string)

  type Usage = map<(UserId, Day), UsageRecord>

  const DailyLimit := 5

  /** A user may call the AI while fewer than five calls are recorded for today. */
  function CanUseAIFeature(usage: Usage, u: UserId, today: Day): (ok: bool)
    ensures (u, today) !in usage ==> ok
    ensures (u, today) in usage ==> (ok <==> usage[(u, today)].callsToday < DailyLimit)
  {
    if (u, today) !in usage then true
    else usage[(u, today)].callsToday < DailyLimit
  }

  /** Calls left today: five without a record, otherwise five minus the calls made, never below zero. */
  function GetRemainingCalls(usage: Usage, u: UserId, today: Day): (n: int)
    ensures 0 <= n
    ensures (u, today) in usage && usage[(u, today)].callsToday >= 0 ==> n <= DailyLimit
    ensures n > 0 <==> CanUseAIFeature(usage, u, today)
    ensures (u, today) !in usage ==> n == DailyLimit
    ensures (u, today) in usage && 0 <= usage[(u, today)].callsToday <= DailyLimit ==>
              n + usage[(u, today)].callsToday == DailyLimit
  {
    if (u, today) !in usage then DailyLimit
    else if DailyLimit - usage[(u, today)].callsToday > 0 then DailyLimit - usage[(u, today)].callsToday
    else 0
  }

  /**
   * Record one call: today's record is created with one call and `feature`,
   * or its count goes up by one with its feature kept. No other record changes.
   */
  function IncrementUsage(usage: Usage, u: UserId, today: Day, feature: string): (r: Usage)
    ensures r.Keys == usage.Keys + {(u, today)}
    ensures (u, today) !in usage ==> r[(u, today)] == UsageRecord(1, feature)
    ensures (u, today) in usage ==>
              && r[(u, today)].callsToday == usage[(u, today)].callsToday + 1
              && r[(u, today)].feature == usage[(u, today)].feature
    ensures forall k :: k in usage && k != (u, today) ==> r[k] == usage[k]
  {
    if (u, today) !in usage then usage[(u, today) := UsageRecord(1, feature)]
    else usage[(u, today) := usage[(u, today)].(callsToday := usage[(u, today)].callsToday + 1)]
  }

  /** Every record holds between one and five calls, as the check-before-increment protocol keeps it. */
  ghost predicate WithinQuota(usage: Usage) {
    forall k :: k in usage ==> 1 <= usage[k].callsToday <= DailyLimit
  }

  /** An increment allowed by the check uses up exactly one of today's remaining calls and keeps the quota. */
  lemma IncrementUsesOneCall(usage: Usage, u: UserId, today: Day, feature: string)
    requires WithinQuota(usage) && CanUseAIFeature(usage, u, today)
    ensures var r := IncrementUsage(usage, u, today, feature);
            && WithinQuota(r)
            && GetRemainingCalls(r, u, today) == GetRemainingCalls(usage, u, today) - 1
  {
  }

  /** Once today's record exists, later increments never change its feature. */
  lemma {:induction false} FeatureFixedAtCreation(usage: Usage, u: UserId, today: Day, features: seq<string>)
    requires (u, today) in usage
    ensures var r := IncrementAll(usage, u, today, features);
            && (u, today) in r
            && r[(u, today)].feature == usage[(u, today)].feature
            && r[(u, today)].callsToday == usage[(u, today)].callsToday + |features|
  {
    if features != [] {
      FeatureFixedAtCreation(IncrementUsage(usage, u, today, features[0]), u, today, features[1..]);
    }
  }

  /** A run of increments for one user and day, one per feature in turn. */
  function IncrementAll(usage: Usage, u: UserId, today: Day, features: seq<string>): (r: Usage)
    ensures r.Keys == if features == [] then usage.Keys else usage.Keys + {(u, today)}
    decreases |features|
  {
    if features == [] then usage
    else IncrementAll(IncrementUsage(usage, u, today, features[0]), u, today, features[1..])
  }
}

=== FILE: auth.dfy ===
/**
 * The authentication service: registration with unique usernames and
 * e-mails, login by username or e-mail, and the token blacklist used for
 * logout. Password hashing and verification and reading a token's expiry
 * are parameters; the model does not look inside them.
 */
module Auth {
  import opened Wrappers
  import opened Store
  import opened RegisterValidation

  // ---------------------------------------------------------------------------
  // Register

  datatype RegisterResult =
    | Taken                  // username or e-mail already in use: null
    | StoreRejected          // the row does not fit its columns: the save throws
    | Registered(id: UserId)

  predicate UsernameTaken(db: Db, name: string) {
    exists x :: x in db.users && db.users[x].username == name
  }

  predicate EmailTaken(db: Db, email: string) {
    exists x :: x in db.users && db.users[x].email == email
  }

  /**
   * Register: refused while the username or the e-mail is in use; otherwise
   * the user row is saved with the password's hash (never the password),
   * unless it does not fit its columns, in which case the save fails and
   * nothing is stored.
   */
  function Register(db: Db, username: string, email: string, displayName: string,
                    passwordHash: string, now: int, newId: UserId): (r: Outcome<RegisterResult>)
    requires Valid(db) && newId !in db.users
    ensures Valid(r.db)
    ensures r.result.Taken? <==> UsernameTaken(db, username) || EmailTaken(db, email)
    ensures !r.result.Registered? ==> r.db == db
    ensures r.result.StoreRejected? <==>
              !UsernameTaken(db, username) && !EmailTaken(db, email) &&
              !UserFits(User(username, email, passwordHash, displayName, now))
    ensures r.result.Registered? ==>
              && r.result.id == newId
              && r.db.users.Keys == db.users.Keys + {newId}
              && r.db.users[newId] == User(username, email, passwordHash, displayName, now)
              && (forall x :: x in db.users ==> r.db.users[x] == db.users[x])
              && r.db.documents == db.documents && r.db.shares == db.shares && r.db.versions == db.versions
  {
    if UsernameTaken(db, username) then Outcome(db, Taken)
    else if EmailTaken(db, email) then Outcome(db, Taken)
    else
      var user := User(username, email, passwordHash, displayName, now);
      if !UserFits(user) then Outcome(db, StoreRejected)
      else
        AddUserKeepsValid(db, newId, user);
        Outcome(db.(users := db.users[newId := user]), Registered(newId))
  }

  /** Adding a user under a new id, with free names and fitting columns, keeps the store valid. */
  lemma AddUserKeepsValid(db: Db, x: UserId, user: User)
    requires Valid(db) && x !in db.users && UserFits(user)
    requires !UsernameTaken(db, user.username) && !EmailTaken(db, user.email)
    ensures Valid(db.(users := db.users[x := user]))
  {
    var db' := db.(users := db.users[x := user]);
    assert UniqueUsernames(db');
    assert UniqueEmails(db');
    assert ReferencesResolve(db');
    assert LengthsFit(db');
  }

  /** After registering, the new user is the only one holding that username, and the only one holding that e-mail. */
  lemma RegisteredNamesAreUnique(db: Db, username: string, email: string, displayName: string,
                                 passwordHash: string, now: int, newId: UserId)
    requires Valid(db) && newId !in db.users
    ensures var r := Register(db, username, email, displayName, passwordHash, now, newId);
            r.result.Registered? ==>
              forall x :: x in r.db.users && (r.db.users[x].username == username || r.db.users[x].email == email) ==>
                x == newId
  {
  }

  /** A second registration with the same username or e-mail is refused. */
  lemma RegisterTwiceRefused(db: Db, username: string, email: string, displayName: string,
                             passwordHash: string, now: int, newId: UserId,
                             username2: string, email2: string, displayName2: string,
                             passwordHash2: string, now2: int, newId2: UserId)
    requires Valid(db) && newId !in db.users
    requires Register(db, username, email, displayName, passwordHash, now, newId).result.Registered?
    requires username2 == username || email2 == email
    requires newId2 !in Register(db, username, email, displayName, passwordHash, now, newId).db.users
    ensures var once := Register(db, username, email, displayName, passwordHash, now, newId);
            Register(once.db, username2, email2, displayName2, passwordHash2, now2, newId2) == Outcome(once.db, Taken)
  {
    var once := Register(db, username, email, displayName, passwordHash, now, newId);
    assert once.db.users[newId].username == username && once.db.users[newId].email == email;
  }

  /** The validator lets through a request the store then refuses: the display name is not bounded before saving. */
  lemma ValidRequestCanFailInStore(db: Db, now: int, newId: UserId)
    requires Valid(db) && newId !in db.users
    requires forall x :: x in db.users ==> db.users[x].username != "ann" && db.users[x].email != "a@b.c"
    ensures var req := RegisterRequest(Some("ann"), Some("a@b.c"), Some("password"), Some(LongDisplayName));
            && IsValid(req)
            && Register(db, "ann", "a@b.c", LongDisplayName, "", now, newId) == Outcome(db, StoreRejected)
  {
    ValidRequestMayNotFit();
  }

  /** With the display name bounded as its column requires, a valid request for free names always registers. */
  lemma SchemaValidRequestRegisters(db: Db, req: RegisterRequest, passwordHash: string, now: int, newId: UserId)
    requires Valid(db) && newId !in db.users && IsValidForSchema(req)
    requires !UsernameTaken(db, req.username.value) && !EmailTaken(db, req.email.value)
    ensures Register(db, req.username.value, req.email.value, req.displayName.value, passwordHash, now, newId).result
            == Registered(newId)
  {
    ValidForSchemaFits(req, passwordHash, now);
  }

  // ---------------------------------------------------------------------------
  // Login

  predicate Matches(u: User, usernameOrEmail: string) {
    u.username == usernameOrEmail || u.email == usernameOrEmail
  }

  /**
   * The first user, in the table's enumeration order `order`, whose username
   * or e-mail is `key`. The query has no ordering, so which of two matching
   * users comes first is the database's choice.
   */
  function FirstMatch(users: map<UserId, User>, order: seq<UserId>, key: string): (r: Option<UserId>)
    requires forall i :: 0 <= i < |order| ==> order[i] in users
    ensures r.Some? ==> r.value in users && Matches(users[r.value], key)
    ensures r.Some? ==> exists i :: 0 <= i < |order| && order[i] == r.value &&
                          forall j :: 0 <= j < i ==> !Matches(users[order[j]], key)
    ensures r.None? <==> forall i :: 0 <= i < |order| ==> !Matches(users[order[i]], key)
  {
    if order == [] then None
    else if Matches(users[order[0]], key) then Some(order[0])
    else
      var r := FirstMatch(users, order[1..], key);
      if r.Some? then
        var i :| 0 <= i < |order[1..]| && order[1..][i] == r.value &&
                 forall j :: 0 <= j < i ==> !Matches(users[order[1..][j]], key);
        assert order[i + 1] == r.value;
        r
      else r
  }

  /** `order` lists every user of the table. */
  ghost predicate Enumerates(users: map<UserId, User>, order: seq<UserId>) {
    (forall i :: 0 <= i < |order| ==> order[i] in users) && (forall x :: x in users ==> x in order)
  }

  /**
   * Login: the first user whose username or e-mail is the key, if the
   * password verifies against that user's stored hash; otherwise null.
   */
  function Login(db: Db, order: seq<UserId>, usernameOrEmail: string, password: string,
                 verify: (string, string) -> bool): (r: Option<UserId>)
    requires Enumerates(db.users, order)
    ensures r.Some? ==> r.value in db.users && Matches(db.users[r.value], usernameOrEmail)
                        && verify(password, db.users[r.value].passwordHash)
    ensures (forall x :: x in db.users ==> !Matches(db.users[x], usernameOrEmail)) ==> r.None?
    ensures (exists x :: x in db.users && Matches(db.users[x], usernameOrEmail)) ==>
              (r.Some? <==> verify(password, db.users[FirstMatch(db.users, order, usernameOrEmail).value].passwordHash))
    ensures r.Some? ==> r == FirstMatch(db.users, order, usernameOrEmail)
  {
    match FirstMatch(db.users, order, usernameOrEmail)
    case None => None
    case Some(x) => if verify(password, db.users[x].passwordHash) then Some(x) else None
  }

  /** When one user matches the key, the table's order does not matter. */
  lemma LoginIndependentOfOrder(db: Db, order1: seq<UserId>, order2: seq<UserId>, key: string, password: string,
                                verify: (string, string) -> bool, x: UserId)
    requires Enumerates(db.users, order1) && Enumerates(db.users, order2)
    requires x in db.users && Matches(db.users[x], key)
    requires forall y :: y in db.users && Matches(db.users[y], key) ==> y == x
    ensures Login(db, order1, key, password, verify) == Login(db, order2, key, password, verify)
  {
    assert FirstMatch(db.users, order1, key) == Some(x);
    assert FirstMatch(db.users, order2, key) == Some(x);
  }

  /**
   * Unique usernames and unique e-mails do not make the key unambiguous: one
   * user's username can be another's e-mail, and then the table's order
   * decides which of them the password is checked against.
   */
  lemma LoginKeyCanBeAmbiguous()
    ensures var db := Db(map[1 := User("a@b.c", "ann@x.y", "h1", "Ann", 0), 2 := User("bob", "a@b.c", "h2", "Bob", 0)],
                         map[], map[], map[]);
            var verify := (p: string, h: string) => p == "pw" && h == "h2";
            && Valid(db)
            && Login(db, [1, 2], "a@b.c", "pw", verify) == None
            && Login(db, [2, 1], "a@b.c", "pw", verify) == Some(2)
  {
    var db := Db(map[1 := User("a@b.c", "ann@x.y", "h1", "Ann", 0), 2 := User("bob", "a@b.c", "h2", "Bob", 0)],
                 map[], map[], map[]);
    assert db.users[1].username != db.users[2].username;
    assert db.users[1].email != db.users[2].email;
    assert UniqueUsernames(db) && UniqueEmails(db);
  }

  // ---------------------------------------------------------------------------
  // Token blacklist

  datatype BlacklistEntry = BlacklistEntry(blacklistedAt: int, expiresAt: int)

  /** Blacklisted tokens; the token column is unique, so a map from token to its row. */
  type Blacklist = map<string, BlacklistEntry>

  /** Length of the token column. */
  const MaxTokenLength := 500

  predicate IsTokenBlacklisted(bl: Blacklist, token: string) {
    token in bl
  }

  /**
   * Blacklist a token: false, with nothing stored, when the token cannot be
   * read (`readExpiry` gives None); true, with nothing added, when it is
   * already there; otherwise it is stored with its expiry and true returned,
   * unless it is too long for its column, in which case the save throws, the
   * error is swallowed and false returned.
   */
  function BlacklistToken(bl: Blacklist, token: string, readExpiry: string -> Option<int>, now: int)
    : (r: (Blacklist, bool))
    ensures readExpiry(token).None? ==> r == (bl, false)
    ensures r.1 <==> readExpiry(token).Some? && (token in bl || |token| <= MaxTokenLength)
    ensures r.1 ==> IsTokenBlacklisted(r.0, token)
    ensures token in bl ==> r.0 == bl
    ensures forall t :: t != token ==> (IsTokenBlacklisted(r.0, t) <==> IsTokenBlacklisted(bl, t))
    ensures forall t :: t in bl ==> t in r.0 && r.0[t] == bl[t]
  {
    match readExpiry(token)
    case None => (bl, false)
    case Some(expiresAt) =>
      if token in bl then (bl, true)
      else if |token| > MaxTokenLength then (bl, false)
      else (bl[token := BlacklistEntry(now, expiresAt)], true)
  }

  /** Blacklisting the same token again, at any later time, changes nothing and gives the same answer. */
  lemma BlacklistIdempotent(bl: Blacklist, token: string, readExpiry: string -> Option<int>, now1: int, now2: int)
    ensures var once := BlacklistToken(bl, token, readExpiry, now1);
            BlacklistToken(once.0, token, readExpiry, now2) == once
  {
  }

  /** A token once blacklisted stays blacklisted through any later blacklisting. */
  lemma {:induction false} BlacklistOnlyGrows(bl: Blacklist, tokens: seq<string>, readExpiry: string -> Option<int>,
                                              now: int, t: string)
    requires IsTokenBlacklisted(bl, t)
    ensures IsTokenBlacklisted(BlacklistAll(bl, tokens, readExpiry, now), t)
    decreases |tokens|
  {
    if tokens != [] {
      BlacklistOnlyGrows(BlacklistToken(bl, tokens[0], readExpiry, now).0, tokens[1..], readExpiry, now, t);
    }
  }

  /** Logging out each token in turn. */
  function BlacklistAll(bl: Blacklist, tokens: seq<string>, readExpiry: string -> Option<int>, now: int)
    : (r: Blacklist)
    ensures forall t :: t in r ==> t in bl || t in tokens
    decreases |tokens|
  {
    if tokens == [] then bl
    else BlacklistAll(BlacklistToken(bl, tokens[0], readExpiry, now).0, tokens[1..], readExpiry, now)
  }
}

=== FILE: colors.dfy ===
/**
 * The colour a user id is drawn in: a 32-bit-style string hash over the id's
 * UTF-16 code units, reduced to a hue in [0, 359], rendered as
 * `hsl(<hue>, 70%, 50%)`. JavaScript's `<<` converts its operand to a signed
 * 32-bit integer and wraps the result to one; `+` and `-` are exact on the
 * values that occur (see `HashBound`); `%` truncates toward zero.
 */
module Colors {
  import opened Text

  const TwoTo32 := 0x1_0000_0000
  const TwoTo31 := 0x8000_0000

  /** ECMAScript ToInt32 on an integral number: wrap into [-2^31, 2^31). */
  function ToInt32(x: int): (r: int)
    ensures -TwoTo31 <= r < TwoTo31
    ensures (r - x) % TwoTo32 == 0
  {
    var m := x % TwoTo32;
    if m >= TwoTo31 then m - TwoTo32 else m
  }

  /** `x << 5` in JavaScript. */
  function ShiftLeft5(x: int): (r: int)
    ensures -TwoTo31 <= r < TwoTo31
  {
    ToInt32(ToInt32(x) * 32)
  }

  /** One round of the hash: `hash = code + ((hash << 5) - hash)`. */
  function Mix(hash: int, code: int): int {
    code + (ShiftLeft5(hash) - hash)
  }

  /** The hash of a sequence of code units, folded from the left starting at 0. */
  function Hash(units: seq<int>): int
    decreases |units|
  {
    if units == [] then 0 else Mix(Hash(units[..|units| - 1]), units[|units| - 1])
  }

  /** JavaScript's `hash % 360`: the remainder takes the sign of the dividend. */
  function JsRemainder360(a: int): (r: int)
    ensures -360 < r < 360
    ensures (a - r) % 360 == 0
    ensures a >= 0 ==> r >= 0
    ensures a < 0 ==> r <= 0
  {
    if a >= 0 then a % 360 else -((-a) % 360)
  }

  /** `Math.abs(hash % 360)`: the hue depends only on the hash's magnitude. */
  function HueOfHash(hash: int): (hue: int)
    ensures 0 <= hue <= 359
    ensures hash >= 0 ==> hue == hash % 360
    ensures hash < 0 ==> hue == (-hash) % 360
  {
    var r := JsRemainder360(hash);
    if r < 0 then -r else r
  }

  /** The hue of a user id. */
  function Hue(userId: string): (hue: int)
    ensures 0 <= hue <= 359
  {
    HueOfHash(Hash(CodeUnits(userId)))
  }

  function DigitChar(d: int): char
    requires 0 <= d <= 9
  {
    ('0' as int + d) as char
  }

  /** The decimal numeral JavaScript prints for a non-negative integer. */
  function Decimal(n: nat): (s: string)
    ensures |s| >= 1
    ensures forall i :: 0 <= i < |s| ==> '0' <= s[i] <= '9'
    ensures s[0] == '0' ==> n == 0
  {
    if n < 10 then [DigitChar(n)] else Decimal(n / 10) + [DigitChar(n % 10)]
  }

  /** The value of a numeral of decimal digits. */
  function ParseDecimal(s: string): nat
    requires forall i :: 0 <= i < |s| ==> '0' <= s[i] <= '9'
  {
    if s == [] then 0 else 10 * ParseDecimal(s[..|s| - 1]) + (s[|s| - 1] as int - '0' as int)
  }

  /** Reading back the numeral gives the number printed. */
  lemma {:induction false} DecimalRoundTrip(n: nat)
    ensures ParseDecimal(Decimal(n)) == n
  {
    if n >= 10 {
      var s := Decimal(n);
      assert s[..|s| - 1] == Decimal(n / 10);
      DecimalRoundTrip(n / 10);
    }
  }

  const Prefix := "hsl("
  const Suffix := ", 70%, 50%)"

  function Hsl(hue: nat): string {
    Prefix + Decimal(hue) + Suffix
  }

  /**
   * `getUserColor`: the hash loop over the id's code units, then the hue and
   * the colour string.
   */
  method GetUserColor(userId: string) returns (color: string)
    ensures color == Hsl(Hue(userId))
  {
    var units := CodeUnits(userId);
    var hash := 0;
    var i := 0;
    while i < |units|
      invariant 0 <= i <= |units|
      invariant hash == Hash(units[..i])
    {
      assert units[..i + 1][..i] == units[..i];
      hash := units[i] + (ShiftLeft5(hash) - hash);
      i := i + 1;
    }
    assert units[..|units|] == units;
    var hue := HueOfHash(hash);
    color := Prefix + Decimal(hue) + Suffix;
  }

  /** The colour string always reads back as `hsl(` a hue in [0, 359] `, 70%, 50%)`, and the hue is the id's. */
  lemma ColorReadsBack(userId: string)
    ensures var c := Hsl(Hue(userId));
            && |c| > |Prefix| + |Suffix|
            && c[..|Prefix|] == Prefix
            && c[|c| - |Suffix|..] == Suffix
            && (forall i :: |Prefix| <= i < |c| - |Suffix| ==> '0' <= c[i] <= '9')
            && ParseDecimal(c[|Prefix|..|c| - |Suffix|]) == Hue(userId)
            && 0 <= ParseDecimal(c[|Prefix|..|c| - |Suffix|]) <= 359
  {
    var c := Hsl(Hue(userId));
    var digits := Decimal(Hue(userId));
    assert c[|Prefix|..|c| - |Suffix|] == digits;
    DecimalRoundTrip(Hue(userId));
  }

  /** The empty id is drawn at hue 0. */
  lemma EmptyIdHue()
    ensures Hue("") == 0
  {
  }

  /** A one-character id whose character is in the Basic Multilingual Plane is drawn at its code modulo 360. */
  lemma SingleCharHue(c: char)
    requires (c as int) < 0x1_0000
    ensures Hue([c]) == (c as int) % 360
  {
    assert CodeUnits([c]) == [c as int] by {
      assert [c][1..] == [];
    }
    assert [c as int][..0] == [];
    assert ShiftLeft5(0) == 0;
    assert Hash([c as int]) == c as int;
  }

  /** On values whose shift does not overflow, `x << 5` is multiplication by 32. */
  lemma ShiftLeft5Small(x: int)
    requires -0x400_0000 <= x < 0x400_0000
    ensures ShiftLeft5(x) == 32 * x
  {
  }

  /** Each round moves the hash by at most 2^31 + 65535 from where it was. */
  lemma MixBound(hash: int, code: int)
    requires 0 <= code < 0x1_0000
    ensures -TwoTo31 - 0xFFFF <= Mix(hash, code) + hash <= TwoTo31 + 0xFFFF
  {
  }

  /**
   * The hash stays within n * (2^31 + 65535) of zero for n code units, so for
   * ids shorter than four million code units every intermediate value is an
   * integer below 2^53, where JavaScript's floating-point `+` and `-` are exact.
   */
  lemma {:induction false} HashBound(units: seq<int>)
    requires forall i :: 0 <= i < |units| ==> 0 <= units[i] < 0x1_0000
    ensures -|units| * (TwoTo31 + 0xFFFF) <= Hash(units) <= |units| * (TwoTo31 + 0xFFFF)
    decreases |units|
  {
    if units != [] {
      var init := units[..|units| - 1];
      HashBound(init);
      MixBound(Hash(init), units[|units| - 1]);
    }
  }
}

=== FILE: documents.dfy ===
/**
 * The document service: who may read, edit, delete and share a document,
 * the five-documents-per-owner cap, the 50,000-character content cap, the
 * share upsert, and the owner and shared listings, as pure transitions over
 * the store. Each mutating operation returns the new store and the service's
 * result; a null result is None.
 */
module Documents {
  import opened Wrappers
  import opened Store
  import opened Text

  const MaxDocumentsPerUser := 5
  const MaxCharacterCount := 50000

  /** Title bound of the create request; the update request allows the column's 255. */
  const MaxNewTitleLength := 200

  /** Content and character count of a freshly created document. */
  const InitialContent := "{}"

  /** The documents `u` owns. */
  function OwnedBy(db: Db, u: UserId): set<DocId> {
    set d | d in db.documents && db.documents[d].ownerId == u
  }

  predicate IsOwner(db: Db, d: DocId, u: UserId) {
    d in db.documents && db.documents[d].ownerId == u
  }

  /** `u` holds a share on `d`, with any permission. */
  predicate HasShare(db: Db, d: DocId, u: UserId) {
    exists s :: s in db.shares && db.shares[s].documentId == d && db.shares[s].userId == u
  }

  predicate HasEditShare(db: Db, d: DocId, u: UserId) {
    exists s :: s in db.shares && db.shares[s].documentId == d && db.shares[s].userId == u &&
      db.shares[s].permission == Edit
  }

  predicate CanRead(db: Db, d: DocId, u: UserId) {
    d in db.documents && (IsOwner(db, d, u) || HasShare(db, d, u))
  }

  predicate CanEdit(db: Db, d: DocId, u: UserId) {
    d in db.documents && (IsOwner(db, d, u) || HasEditShare(db, d, u))
  }

  /** What the service returns for a document: its columns plus the owner's name and display name. */
  datatype DocumentView = DocumentView(
    id: DocId, title: string, content: string, characterCount: int, ownerId: UserId,
    ownerUsername: string, ownerDisplayName: string, createdAt: int, updatedAt: int)

  function ViewOf(db: Db, d: DocId): (v: DocumentView)
    requires d in db.documents && db.documents[d].ownerId in db.users
    ensures v.id == d && v.ownerId == db.documents[d].ownerId
  {
    var doc := db.documents[d];
    var owner := db.users[doc.ownerId];
    DocumentView(d, doc.title, doc.content, doc.characterCount, doc.ownerId,
                 owner.username, owner.displayName, doc.createdAt, doc.updatedAt)
  }

  /** The character count the service stores: the content's length in UTF-16 code units. */
  function CountPlainTextCharacters(content: string): (n: nat)
    ensures n == Utf16Length(content)
    ensures |content| <= n
  {
    Utf16Length(content)
  }

  /** The store with row `d` of the document table set to `doc`; the other tables as they were. */
  function WithDocument(db: Db, d: DocId, doc: Document): (r: Db)
    ensures r.users == db.users && r.shares == db.shares && r.versions == db.versions
    ensures r.documents.Keys == db.documents.Keys + {d} && r.documents[d] == doc
    ensures d in db.documents ==> r.documents.Keys == db.documents.Keys
    ensures forall e :: e in db.documents && e != d ==> r.documents[e] == db.documents[e]
  {
    db.(documents := db.documents[d := doc])
  }

  /** Writing a document row whose owner exists and whose title fits keeps the store valid. */
  lemma PutDocumentKeepsValid(db: Db, d: DocId, doc: Document)
    requires Valid(db) && doc.ownerId in db.users && |doc.title| <= MaxTitleLength
    ensures Valid(WithDocument(db, d, doc))
  {
    var db' := WithDocument(db, d, doc);
    assert UniqueUsernames(db') && UniqueEmails(db') && UniqueSharePairs(db') && UniqueVersionNumbers(db');
    forall e | e in db'.documents
      ensures db'.documents[e].ownerId in db'.users && |db'.documents[e].title| <= MaxTitleLength
    {
      if e != d { assert db'.documents[e] == db.documents[e]; }
    }
    assert ReferencesResolve(db');
    assert LengthsFit(db');
  }

  /** Writing a share row whose references resolve and whose pair is not held by another row keeps the store valid. */
  lemma PutShareKeepsValid(db: Db, s: ShareId, share: Share)
    requires Valid(db) && share.documentId in db.documents && share.userId in db.users
    requires forall t :: t in db.shares && t != s ==>
               !(db.shares[t].documentId == share.documentId && db.shares[t].userId == share.userId)
    ensures Valid(db.(shares := db.shares[s := share]))
  {
    var db' := db.(shares := db.shares[s := share]);
    forall a, b | a in db'.shares && b in db'.shares &&
                  db'.shares[a].documentId == db'.shares[b].documentId && db'.shares[a].userId == db'.shares[b].userId
      ensures a == b
    {
      if a != s && b != s {
        assert db'.shares[a] == db.shares[a] && db'.shares[b] == db.shares[b];
      }
    }
    assert UniqueSharePairs(db');
    forall t | t in db'.shares
      ensures db'.shares[t].documentId in db'.documents && db'.shares[t].userId in db'.users
    {
      if t != s { assert db'.shares[t] == db.shares[t]; }
    }
    assert ReferencesResolve(db');
    assert UniqueUsernames(db') && UniqueEmails(db') && UniqueVersionNumbers(db') && LengthsFit(db');
  }

  // ---------------------------------------------------------------------------
  // Create

  /**
   * Create: refused, with the store unchanged, once the owner has five
   * documents; otherwise exactly one new document, owned by the caller, with
   * content "{}" and character count 0.
   */
  function CreateDocument(db: Db, u: UserId, title: string, now: int, newId: DocId): (r: Outcome<Option<DocumentView>>)
    requires Valid(db) && u in db.users && newId !in db.documents
    requires Utf16Length(title) <= MaxNewTitleLength
    ensures Valid(r.db)
    ensures r.result.None? <==> |OwnedBy(db, u)| >= MaxDocumentsPerUser
    ensures r.result.None? ==> r.db == db
    ensures r.result.Some? ==>
              && r.db.documents == db.documents[newId := Document(u, title, InitialContent, 0, now, now)]
              && r.db.users == db.users && r.db.shares == db.shares && r.db.versions == db.versions
              && r.result.value.id == newId && r.result.value.ownerId == u
              && OwnedBy(r.db, u) == OwnedBy(db, u) + {newId}
  {
    if |OwnedBy(db, u)| >= MaxDocumentsPerUser then Outcome(db, None)
    else
      var doc := Document(u, title, InitialContent, 0, now, now);
      var db' := WithDocument(db, newId, doc);
      PutDocumentKeepsValid(db, newId, doc);
      NewDocumentIsOwned(db, newId, doc);
      Outcome(db', Some(ViewOf(db', newId)))
  }

  /** A new row adds exactly its id to its owner's documents. */
  lemma NewDocumentIsOwned(db: Db, d: DocId, doc: Document)
    requires d !in db.documents
    ensures OwnedBy(WithDocument(db, d, doc), doc.ownerId) == OwnedBy(db, doc.ownerId) + {d}
  {
    var db' := WithDocument(db, d, doc);
    forall e | e in OwnedBy(db', doc.ownerId) ensures e in OwnedBy(db, doc.ownerId) + {d} {
      if e != d { assert db'.documents[e] == db.documents[e]; }
    }
  }

  /** Starting from a store within the cap, creating documents never takes an owner past five. */
  lemma CreateKeepsCap(db: Db, u: UserId, title: string, now: int, newId: DocId)
    requires Valid(db) && u in db.users && newId !in db.documents && Utf16Length(title) <= MaxNewTitleLength
    requires |OwnedBy(db, u)| <= MaxDocumentsPerUser
    ensures |OwnedBy(CreateDocument(db, u, title, now, newId).db, u)| <= MaxDocumentsPerUser
  {
    var r := CreateDocument(db, u, title, now, newId);
    if r.result.Some? {
      assert newId !in OwnedBy(db, u);
    }
  }

  // ---------------------------------------------------------------------------
  // Read

  /** A document is returned exactly to its owner and to users holding any share on it. */
  function GetDocumentById(db: Db, d: DocId, u: UserId): (r: Option<DocumentView>)
    requires Valid(db)
    ensures r.Some? <==> CanRead(db, d, u)
    ensures r.Some? ==> r.value == ViewOf(db, d)
  {
    if d !in db.documents then None
    else if !IsOwner(db, d, u) && !HasShare(db, d, u) then None
    else Some(ViewOf(db, d))
  }

  // ---------------------------------------------------------------------------
  // Update

  /**
   * Update: only the owner or an Edit-share holder may update; content longer
   * than 50,000 characters rejects the whole request, title included; on
   * success the title and content given are applied, the count set to the
   * content's length, and the update time set.
   */
  function UpdateDocument(db: Db, d: DocId, u: UserId, title: Option<string>, content: Option<string>, now: int)
    : (r: Outcome<Option<DocumentView>>)
    requires Valid(db)
    requires title.Some? ==> 1 <= Utf16Length(title.value) <= MaxTitleLength
    ensures Valid(r.db)
    ensures r.result.Some? <==> CanEdit(db, d, u) && (content.None? || Utf16Length(content.value) <= MaxCharacterCount)
    ensures r.result.None? ==> r.db == db
    ensures r.result.Some? ==>
              && r.db.documents.Keys == db.documents.Keys
              && r.db.users == db.users && r.db.shares == db.shares && r.db.versions == db.versions
              && (forall e :: e in db.documents && e != d ==> r.db.documents[e] == db.documents[e])
              && r.db.documents[d].title == title.GetOr(db.documents[d].title)
              && r.db.documents[d].content == content.GetOr(db.documents[d].content)
              && (content.Some? ==> r.db.documents[d].characterCount == Utf16Length(content.value))
              && (content.None? ==> r.db.documents[d].characterCount == db.documents[d].characterCount)
              && r.db.documents[d].ownerId == db.documents[d].ownerId
              && r.db.documents[d].createdAt == db.documents[d].createdAt
              && r.db.documents[d].updatedAt == now
              && r.result.value == ViewOf(r.db, d)
  {
    if d !in db.documents then Outcome(db, None)
    else if !IsOwner(db, d, u) && !HasEditShare(db, d, u) then Outcome(db, None)
    else if content.Some? && CountPlainTextCharacters(content.value) > MaxCharacterCount then Outcome(db, None)
    else
      var doc := Edited(db.documents[d], title, content, now);
      PutDocumentKeepsValid(db, d, doc);
      var db' := WithDocument(db, d, doc);
      Outcome(db', Some(ViewOf(db', d)))
  }

  /** The row after an accepted update: the fields given replace the old ones, and the update time is `now`. */
  function Edited(doc: Document, title: Option<string>, content: Option<string>, now: int): (e: Document)
    ensures e.title == title.GetOr(doc.title) && e.content == content.GetOr(doc.content)
    ensures content.Some? ==> e.characterCount == Utf16Length(content.value)
    ensures content.None? ==> e.characterCount == doc.characterCount
    ensures e.ownerId == doc.ownerId && e.createdAt == doc.createdAt && e.updatedAt == now
  {
    var doc := if title.Some? then doc.(title := title.value) else doc;
    var doc := if content.Some? then
                 doc.(content := content.value, characterCount := CountPlainTextCharacters(content.value))
               else doc;
    doc.(updatedAt := now)
  }

  /** A user holding only a Read share cannot update. */
  lemma ReadShareCannotUpdate(db: Db, d: DocId, u: UserId, title: Option<string>, content: Option<string>, now: int)
    requires Valid(db)
    requires title.Some? ==> 1 <= Utf16Length(title.value) <= MaxTitleLength
    requires d in db.documents && db.documents[d].ownerId != u
    requires forall s :: s in db.shares && db.shares[s].documentId == d && db.shares[s].userId == u ==>
               db.shares[s].permission == Read
    ensures UpdateDocument(db, d, u, title, content, now) == Outcome(db, None)
  {
  }

  // ---------------------------------------------------------------------------
  // Delete

  /** Delete: the owner alone may delete, and the document's shares and versions go with it. */
  function DeleteDocumentAsOwner(db: Db, d: DocId, u: UserId): (r: Outcome<bool>)
    requires Valid(db)
    ensures Valid(r.db)
    ensures r.result <==> IsOwner(db, d, u)
    ensures !r.result ==> r.db == db
    ensures r.result ==> r.db == DeleteDocument(db, d)
  {
    if d !in db.documents || db.documents[d].ownerId != u then Outcome(db, false)
    else
      DeleteDocumentKeepsValid(db, d);
      Outcome(DeleteDocument(db, d), true)
  }

  // ---------------------------------------------------------------------------
  // Sharing

  /** The user with this username, if any; usernames are unique. */
  function FindUserByUsername(db: Db, name: string): (r: Option<UserId>)
    requires UniqueUsernames(db)
    ensures r.Some? ==> r.value in db.users && db.users[r.value].username == name
    ensures r.None? ==> forall x :: x in db.users ==> db.users[x].username != name
  {
    if exists x :: x in db.users && db.users[x].username == name then
      var x :| x in db.users && db.users[x].username == name;
      Some(x)
    else None
  }

  /** The share of `d` held by `u`, if any; there is at most one. */
  function FindShare(db: Db, d: DocId, u: UserId): (r: Option<ShareId>)
    requires UniqueSharePairs(db)
    ensures r.Some? ==> r.value in db.shares && db.shares[r.value].documentId == d && db.shares[r.value].userId == u
    ensures r.None? <==> !HasShare(db, d, u)
  {
    if exists s :: s in db.shares && db.shares[s].documentId == d && db.shares[s].userId == u then
      var s :| s in db.shares && db.shares[s].documentId == d && db.shares[s].userId == u;
      Some(s)
    else None
  }

  /** Number of shares of `d` held by `u`. */
  function SharesFor(db: Db, d: DocId, u: UserId): set<ShareId> {
    set s | s in db.shares && db.shares[s].documentId == d && db.shares[s].userId == u
  }

  /** Updating the one existing share of the pair in place: still one share, now holding `p`. */
  function UpdateSharePermission(db: Db, d: DocId, target: UserId, s: ShareId, p: Permission): (r: Outcome<Share>)
    requires UniqueSharePairs(db)
    requires s in db.shares && db.shares[s].documentId == d && db.shares[s].userId == target
    ensures r.result.documentId == d && r.result.userId == target && r.result.permission == p
    ensures SharesFor(r.db, d, target) == {s} && r.db.shares[s] == r.result
    ensures r.db.shares.Keys == db.shares.Keys
    ensures forall t :: t in db.shares && t != s ==> r.db.shares[t] == db.shares[t]
    ensures r.db.users == db.users && r.db.documents == db.documents && r.db.versions == db.versions
  {
    var updated := db.shares[s].(permission := p);
    var db' := db.(shares := db.shares[s := updated]);
    assert SharesFor(db', d, target) == {s};
    Outcome(db', updated)
  }

  /** Adding the first share of the pair under a new key. */
  function AddShare(db: Db, d: DocId, target: UserId, p: Permission, now: int, newId: ShareId): (r: Outcome<Share>)
    requires newId !in db.shares && !HasShare(db, d, target)
    ensures r.result == Share(d, target, p, now)
    ensures SharesFor(r.db, d, target) == {newId} && r.db.shares[newId] == r.result
    ensures r.db.shares.Keys == db.shares.Keys + {newId}
    ensures forall t :: t in db.shares ==> r.db.shares[t] == db.shares[t]
    ensures r.db.users == db.users && r.db.documents == db.documents && r.db.versions == db.versions
  {
    var share := Share(d, target, p, now);
    var db' := db.(shares := db.shares[newId := share]);
    assert SharesFor(db', d, target) == {newId};
    Outcome(db', share)
  }

  /** The key the upsert writes: the pair's existing share, or else the new id. */
  function UpsertKey(db: Db, d: DocId, target: UserId, newId: ShareId): (k: ShareId)
    requires UniqueSharePairs(db)
    ensures HasShare(db, d, target) ==> k in db.shares && db.shares[k].documentId == d && db.shares[k].userId == target
    ensures !HasShare(db, d, target) ==> k == newId
  {
    match FindShare(db, d, target)
    case Some(s) => s
    case None => newId
  }

  /** The upsert of the share of `d` for `target`: one share for the pair afterwards, holding `p`. */
  function UpsertShare(db: Db, d: DocId, target: UserId, p: Permission, now: int, newId: ShareId): (r: Outcome<Share>)
    requires UniqueSharePairs(db) && newId !in db.shares
    ensures r.result.documentId == d && r.result.userId == target && r.result.permission == p
    ensures var k := UpsertKey(db, d, target, newId);
            SharesFor(r.db, d, target) == {k} && r.db.shares[k] == r.result
    ensures HasShare(db, d, target) ==> r.db.shares.Keys == db.shares.Keys
    ensures !HasShare(db, d, target) ==> r.db.shares.Keys == db.shares.Keys + {newId}
    ensures forall s :: s in db.shares && s !in SharesFor(db, d, target) ==> s in r.db.shares && r.db.shares[s] == db.shares[s]
    ensures r.db.users == db.users && r.db.documents == db.documents && r.db.versions == db.versions
  {
    match FindShare(db, d, target)
    case Some(s) =>
      assert SharesFor(db, d, target) == {s};
      UpdateSharePermission(db, d, target, s, p)
    case None =>
      AddShare(db, d, target, p, now, newId)
  }

  /** The upsert keeps the store valid: the pair it writes is held by no other share. */
  lemma UpsertShareKeepsValid(db: Db, d: DocId, target: UserId, p: Permission, now: int, newId: ShareId)
    requires Valid(db) && newId !in db.shares && d in db.documents && target in db.users
    ensures Valid(UpsertShare(db, d, target, p, now, newId).db)
  {
    match FindShare(db, d, target)
    case Some(s) =>
      PutShareKeepsValid(db, s, db.shares[s].(permission := p));
    case None =>
      PutShareKeepsValid(db, newId, Share(d, target, p, now));
  }

  /**
   * Share: refused for a non-owner, an unknown username, the owner themself and
   * an unparsed permission (None); sharing again with the same user updates
   * the permission of the existing share, otherwise one share is added.
   */
  function ShareDocument(db: Db, d: DocId, owner: UserId, username: string, permission: Option<Permission>,
                         now: int, newId: ShareId): (r: Outcome<Option<Share>>)
    requires Valid(db) && newId !in db.shares
    ensures Valid(r.db)
    ensures r.result.Some? <==>
              && IsOwner(db, d, owner)
              && FindUserByUsername(db, username).Some?
              && FindUserByUsername(db, username).value != owner
              && permission.Some?
    ensures r.result.None? ==> r.db == db
    ensures r.result.Some? ==>
              var target := FindUserByUsername(db, username).value;
              && r.result.value.documentId == d && r.result.value.userId == target
              && r.result.value.permission == permission.value
              && SharesFor(r.db, d, target) == {UpsertKey(db, d, target, newId)}
              && r.db.shares[UpsertKey(db, d, target, newId)] == r.result.value
              && (HasShare(db, d, target) ==> r.db.shares.Keys == db.shares.Keys)
              && (!HasShare(db, d, target) ==> r.db.shares.Keys == db.shares.Keys + {newId})
              && (forall s :: s in db.shares && s !in SharesFor(db, d, target) ==> r.db.shares[s] == db.shares[s])
              && r.db.users == db.users && r.db.documents == db.documents && r.db.versions == db.versions
  {
    if !(d in db.documents && db.documents[d].ownerId == owner) then Outcome(db, None)
    else match FindUserByUsername(db, username)
      case None => Outcome(db, None)
      case Some(target) =>
        if target == owner then Outcome(db, None)
        else match permission
          case None => Outcome(db, None)
          case Some(p) =>
            var up := UpsertShare(db, d, target, p, now, newId);
            UpsertShareKeepsValid(db, d, target, p, now, newId);
            Outcome(up.db, Some(up.result))
  }

  /** Sharing twice with the same user leaves one share, with the second permission. */
  lemma ShareTwiceKeepsOneShare(db: Db, d: DocId, owner: UserId, username: string, p1: Permission, p2: Permission,
                                now: int, newId1: ShareId, newId2: ShareId)
    requires Valid(db) && newId1 !in db.shares
    requires newId2 !in ShareDocument(db, d, owner, username, Some(p1), now, newId1).db.shares
    requires ShareDocument(db, d, owner, username, Some(p1), now, newId1).result.Some?
    ensures var once := ShareDocument(db, d, owner, username, Some(p1), now, newId1);
            var twice := ShareDocument(once.db, d, owner, username, Some(p2), now, newId2);
            && twice.result.Some?
            && twice.result.value.permission == p2
            && twice.db.shares.Keys == once.db.shares.Keys
  {
    var once := ShareDocument(db, d, owner, username, Some(p1), now, newId1);
    var target := FindUserByUsername(db, username).value;
    assert FindUserByUsername(once.db, username) == Some(target);
    var s := UpsertKey(db, d, target, newId1);
    assert s in SharesFor(once.db, d, target);
    assert HasShare(once.db, d, target);
  }

  /** The shares of `d`: all of them for its owner, none for anyone else. */
  function GetDocumentShares(db: Db, d: DocId, owner: UserId): (r: map<ShareId, Share>)
    ensures IsOwner(db, d, owner) ==>
              forall s :: s in r <==> s in db.shares && db.shares[s].documentId == d
    ensures !IsOwner(db, d, owner) ==> r == map[]
    ensures forall s :: s in r ==> s in db.shares && r[s] == db.shares[s]
  {
    if !(d in db.documents && db.documents[d].ownerId == owner) then map[]
    else map s | s in db.shares && db.shares[s].documentId == d :: db.shares[s]
  }

  /** Remove share: the owner alone may remove an existing share; anything else changes nothing. */
  function RemoveShare(db: Db, d: DocId, owner: UserId, u: UserId): (r: Outcome<bool>)
    requires Valid(db)
    ensures Valid(r.db)
    ensures r.result <==> IsOwner(db, d, owner) && HasShare(db, d, u)
    ensures !r.result ==> r.db == db
    ensures r.result ==>
              && !HasShare(r.db, d, u)
              && r.db.shares.Keys == db.shares.Keys - SharesFor(db, d, u)
              && (forall s :: s in r.db.shares ==> r.db.shares[s] == db.shares[s])
              && r.db.users == db.users && r.db.documents == db.documents && r.db.versions == db.versions
  {
    if !(d in db.documents && db.documents[d].ownerId == owner) then Outcome(db, false)
    else match FindShare(db, d, u)
      case None => Outcome(db, false)
      case Some(s) =>
        assert SharesFor(db, d, u) == {s};
        DropShareKeepsValid(db, s);
        Outcome(db.(shares := db.shares - {s}), true)
  }

  /** Dropping a share row keeps the store valid: nothing refers to shares. */
  lemma DropShareKeepsValid(db: Db, s: ShareId)
    requires Valid(db)
    ensures Valid(db.(shares := db.shares - {s}))
  {
    var db' := db.(shares := db.shares - {s});
    assert UniqueSharePairs(db');
    assert ReferencesResolve(db');
  }

  // ---------------------------------------------------------------------------
  // Listings, newest update first

  ghost predicate Distinct(ids: seq<DocId>) {
    forall i, j :: 0 <= i < j < |ids| ==> ids[i] != ids[j]
  }

  ghost predicate SortedByUpdatedDesc(docs: map<DocId, Document>, ids: seq<DocId>)
    requires forall i :: 0 <= i < |ids| ==> ids[i] in docs
  {
    forall i, j :: 0 <= i < j < |ids| ==> docs[ids[i]].updatedAt >= docs[ids[j]].updatedAt
  }

  /** `ids` lists exactly the documents `wanted`, once each, newest update first. */
  ghost predicate ListingOf(docs: map<DocId, Document>, wanted: set<DocId>, ids: seq<DocId>) {
    && (forall i :: 0 <= i < |ids| ==> ids[i] in docs)
    && (forall d :: d in wanted <==> d in ids)
    && Distinct(ids)
    && SortedByUpdatedDesc(docs, ids)
  }

  /** Puts `x` into a list sorted newest first, before the first entry updated earlier than it. */
  function InsertByUpdated(docs: map<DocId, Document>, x: DocId, ids: seq<DocId>): (r: seq<DocId>)
    requires x in docs && forall i :: 0 <= i < |ids| ==> ids[i] in docs
    requires SortedByUpdatedDesc(docs, ids)
    ensures |r| == |ids| + 1
    ensures forall i :: 0 <= i < |r| ==> r[i] in docs
    ensures forall y :: y in r <==> y in ids || y == x
    ensures SortedByUpdatedDesc(docs, r)
    ensures Distinct(ids) && x !in ids ==> Distinct(r)
    decreases |ids|
  {
    if |ids| == 0 || docs[ids[0]].updatedAt < docs[x].updatedAt then [x] + ids
    else
      var rest := InsertByUpdated(docs, x, ids[1..]);
      TailOfSorted(docs, ids, x, rest);
      [ids[0]] + rest
  }

  /**
   * The step of the insertion: the head of a sorted list, put before the
   * insertion of `x` into its tail, keeps the result sorted and distinct.
   */
  lemma TailOfSorted(docs: map<DocId, Document>, ids: seq<DocId>, x: DocId, rest: seq<DocId>)
    requires |ids| > 0 && x in docs && forall i :: 0 <= i < |ids| ==> ids[i] in docs
    requires SortedByUpdatedDesc(docs, ids) && docs[ids[0]].updatedAt >= docs[x].updatedAt
    requires forall i :: 0 <= i < |rest| ==> rest[i] in docs
    requires forall y :: y in rest <==> y in ids[1..] || y == x
    requires SortedByUpdatedDesc(docs, rest)
    requires Distinct(ids[1..]) && x !in ids[1..] ==> Distinct(rest)
    ensures forall y :: y in [ids[0]] + rest <==> y in ids || y == x
    ensures SortedByUpdatedDesc(docs, [ids[0]] + rest)
    ensures Distinct(ids) && x !in ids ==> Distinct([ids[0]] + rest)
  {
    assert forall y :: y in ids <==> y == ids[0] || y in ids[1..] by {
      assert ids == [ids[0]] + ids[1..];
    }
    HeadIsNewest(docs, ids, x, rest);
    PrependSorted(docs, ids[0], rest);
    if Distinct(ids) && x !in ids {
      forall k | 0 <= k < |ids[1..]| ensures ids[1..][k] != ids[0] {
        assert ids[1..][k] == ids[k + 1];
      }
      PrependDistinct(ids[0], rest);
    }
  }

  /** The head of a sorted list is updated no earlier than anything inserted after it. */
  lemma HeadIsNewest(docs: map<DocId, Document>, ids: seq<DocId>, x: DocId, rest: seq<DocId>)
    requires |ids| > 0 && x in docs && forall i :: 0 <= i < |ids| ==> ids[i] in docs
    requires SortedByUpdatedDesc(docs, ids) && docs[ids[0]].updatedAt >= docs[x].updatedAt
    requires forall y :: y in rest <==> y in ids[1..] || y == x
    ensures forall y :: y in rest ==> y in docs && docs[ids[0]].updatedAt >= docs[y].updatedAt
  {
    forall y | y in rest ensures y in docs && docs[ids[0]].updatedAt >= docs[y].updatedAt {
      if y != x {
        var k :| 0 <= k < |ids[1..]| && ids[1..][k] == y;
        assert ids[k + 1] == y;
      }
    }
  }

  lemma PrependSorted(docs: map<DocId, Document>, h: DocId, rest: seq<DocId>)
    requires h in docs && forall i :: 0 <= i < |rest| ==> rest[i] in docs
    requires SortedByUpdatedDesc(docs, rest)
    requires forall y :: y in rest ==> y in docs && docs[h].updatedAt >= docs[y].updatedAt
    ensures SortedByUpdatedDesc(docs, [h] + rest)
  {
    var r := [h] + rest;
    forall i, j | 0 <= i < j < |r| ensures docs[r[i]].updatedAt >= docs[r[j]].updatedAt {
      assert r[j] == rest[j - 1];
      if i > 0 { assert r[i] == rest[i - 1]; } else { assert rest[j - 1] in rest; }
    }
  }

  lemma PrependDistinct(h: DocId, rest: seq<DocId>)
    requires Distinct(rest) && h !in rest
    ensures Distinct([h] + rest)
  {
    var r := [h] + rest;
    forall i, j | 0 <= i < j < |r| ensures r[i] != r[j] {
      assert r[j] == rest[j - 1];
      if i > 0 { assert r[i] == rest[i - 1]; } else { assert rest[j - 1] in rest; }
    }
  }

  /** Lists the documents `wanted`, once each, newest update first. */
  method ListByUpdatedDesc(docs: map<DocId, Document>, wanted: set<DocId>) returns (ids: seq<DocId>)
    requires wanted <= docs.Keys
    ensures ListingOf(docs, wanted, ids)
  {
    ids := [];
    var rest := wanted;
    while rest != {}
      invariant rest <= wanted
      invariant forall i :: 0 <= i < |ids| ==> ids[i] in docs
      invariant forall d :: d in ids <==> d in wanted && d !in rest
      invariant Distinct(ids)
      invariant SortedByUpdatedDesc(docs, ids)
      decreases |rest|
    {
      var x :| x in rest;
      ids := InsertByUpdated(docs, x, ids);
      rest := rest - {x};
    }
  }

  /** The caller's own documents, newest update first. */
  method GetUserDocuments(db: Db, u: UserId) returns (r: seq<DocumentView>)
    requires Valid(db)
    ensures forall i :: 0 <= i < |r| ==> r[i].id in db.documents && r[i].ownerId == u && IsOwner(db, r[i].id, u)
    ensures forall d :: IsOwner(db, d, u) <==> exists i :: 0 <= i < |r| && r[i].id == d
    ensures forall i :: 0 <= i < |r| ==> r[i] == ViewOf(db, r[i].id)
    ensures forall i, j :: 0 <= i < j < |r| ==>
              r[i].id != r[j].id && db.documents[r[i].id].updatedAt >= db.documents[r[j].id].updatedAt
  {
    var ids := ListByUpdatedDesc(db.documents, OwnedBy(db, u));
    r := seq(|ids|, i requires 0 <= i < |ids| => ViewOf(db, ids[i]));
    assert forall i :: 0 <= i < |r| ==> r[i] == ViewOf(db, ids[i]);
    forall i | 0 <= i < |r| ensures r[i].id in db.documents && r[i].ownerId == u && IsOwner(db, r[i].id, u) {
      assert ids[i] in ids;
      assert ids[i] in OwnedBy(db, u);
    }
    forall d | IsOwner(db, d, u) ensures exists i :: 0 <= i < |r| && r[i].id == d {
      assert d in OwnedBy(db, u);
      var i :| 0 <= i < |ids| && ids[i] == d;
      assert r[i].id == d;
    }
  }

  /** The documents shared with the caller, newest update first. */
  method GetSharedDocuments(db: Db, u: UserId) returns (r: seq<DocumentView>)
    requires Valid(db)
    ensures forall i :: 0 <= i < |r| ==> HasShare(db, r[i].id, u) && r[i].id in db.documents
    ensures forall d :: d in db.documents && HasShare(db, d, u) <==> exists i :: 0 <= i < |r| && r[i].id == d
    ensures forall i :: 0 <= i < |r| ==> r[i] == ViewOf(db, r[i].id)
    ensures forall i, j :: 0 <= i < j < |r| ==>
              r[i].id != r[j].id && db.documents[r[i].id].updatedAt >= db.documents[r[j].id].updatedAt
  {
    var shared := set d | d in db.documents && HasShare(db, d, u);
    var ids := ListByUpdatedDesc(db.documents, shared);
    r := seq(|ids|, i requires 0 <= i < |ids| => ViewOf(db, ids[i]));
    assert forall i :: 0 <= i < |r| ==> r[i] == ViewOf(db, ids[i]);
    forall i | 0 <= i < |r| ensures HasShare(db, r[i].id, u) && r[i].id in db.documents {
      assert ids[i] in ids;
      assert ids[i] in shared;
    }
    forall d | d in db.documents && HasShare(db, d, u) ensures exists i :: 0 <= i < |r| && r[i].id == d {
      assert d in shared;
      var i :| 0 <= i < |ids| && ids[i] == d;
      assert r[i].id == d;
    }
  }
}

=== FILE: gate.dfy ===
/**
 * The request gate in front of the controllers and the hub: the revocation
 * middleware, which turns away requests whose bearer token is blacklisted
 * but lets every path under /hubs through unchecked, and the JWT handler's
 * message hook, which takes the token from the `access_token` query value on
 * hub paths. The middleware is registered before authentication, so it runs
 * first.
 */
module Gate {
  import opened Wrappers
  import opened Paths
  import opened Auth

  const HubsPrefix := "/hubs"

  /** Where the collaboration hub is mapped. */
  const HubPath := "/hubs/document"

  const BearerPrefix := "Bearer "

  datatype Decision = Next | Revoked   // Revoked: 401, the next handler is not invoked

  /** The middleware's decision and the token it looked up in the blacklist, if any. */
  datatype Check = Check(decision: Decision, lookedUp: Option<string>)

  /**
   * The revocation middleware. `authorization` is the Authorization header,
   * "" when absent. Under /hubs nothing is looked up; otherwise a header
   * starting with "Bearer " has every "Bearer " removed and the rest is looked
   * up; a blacklisted token gives 401, anything else goes on.
   */
  function BlacklistMiddleware(path: string, authorization: string, bl: Blacklist): (r: Check)
    ensures StartsWithSegments(path, HubsPrefix) ==> r == Check(Next, None)
    ensures r.lookedUp.Some? <==> !StartsWithSegments(path, HubsPrefix) && StartsWith(authorization, BearerPrefix)
    ensures r.lookedUp.Some? ==> r.lookedUp.value == RemoveAll(authorization, BearerPrefix)
    ensures r.decision == Revoked <==> r.lookedUp.Some? && IsTokenBlacklisted(bl, r.lookedUp.value)
  {
    if StartsWithSegments(path, HubsPrefix) then Check(Next, None)
    else if |authorization| > 0 && StartsWith(authorization, BearerPrefix) then
      var token := RemoveAll(authorization, BearerPrefix);
      if IsTokenBlacklisted(bl, token) then Check(Revoked, Some(token)) else Check(Next, Some(token))
    else Check(Next, None)
  }

  /**
   * The message hook: the `access_token` query value (None when absent)
   * becomes the token when it is non-empty and the path is under /hubs;
   * otherwise the token stays unset and the handler reads the header.
   */
  function TokenFromQuery(path: string, accessToken: Option<string>): (r: Option<string>)
    ensures r.Some? <==> accessToken.Some? && |accessToken.value| > 0 && StartsWithSegments(path, HubsPrefix)
    ensures r.Some? ==> r == accessToken
  {
    match accessToken
    case Some(t) => if |t| > 0 && StartsWithSegments(path, HubsPrefix) then Some(t) else None
    case None => None
  }

  datatype Verdict =
    | Rejected                      // 401 from the middleware
    | Authenticate(token: Option<string>)  // handed to JWT validation with this token

  /**
   * A request through both stages: the middleware first, then the token the
   * JWT handler validates, from the query on hub paths or else from the
   * header (`headerToken`, the handler's own reading of the header).
   */
  function Pipeline(path: string, authorization: string, accessToken: Option<string>,
                    headerToken: Option<string>, bl: Blacklist): (v: Verdict)
    ensures v.Rejected? <==> BlacklistMiddleware(path, authorization, bl).decision == Revoked
    ensures v.Authenticate? && TokenFromQuery(path, accessToken).Some? ==> v.token == TokenFromQuery(path, accessToken)
    ensures v.Authenticate? && TokenFromQuery(path, accessToken).None? ==> v.token == headerToken
  {
    if BlacklistMiddleware(path, authorization, bl).decision == Revoked then Rejected
    else match TokenFromQuery(path, accessToken)
      case Some(t) => Authenticate(Some(t))
      case None => Authenticate(headerToken)
  }

  /** The hub's path is under /hubs. */
  lemma HubPathUnderHubs()
    ensures StartsWithSegments(HubPath, HubsPrefix)
  {
    assert HubPath[..|HubsPrefix|] == HubsPrefix;
  }

  /** Matching is by segment: "/hubsx" is not under "/hubs", while "/hubs" itself is. */
  lemma SegmentBoundary()
    ensures !StartsWithSegments("/hubsx", HubsPrefix)
    ensures StartsWithSegments("/hubs", HubsPrefix)
  {
    assert "/hubsx"[|HubsPrefix|] == 'x';
    assert "/hubs"[..|HubsPrefix|] == HubsPrefix;
  }

  /** Matching ignores case: "/HUBS/document" is under "/hubs". */
  lemma SegmentMatchIgnoresCase()
    ensures StartsWithSegments("/HUBS/document", HubsPrefix)
  {
    var p := "/HUBS/document";
    assert p[..5] == "/HUBS";
    assert p[5] == '/';
    assert FoldCase('H') == 'h' && FoldCase('U') == 'u' && FoldCase('B') == 'b' && FoldCase('S') == 's';
  }

  /**
   * A query token on the hub's path is handed to authentication without any
   * revocation check: even a blacklisted (logged-out) token gets through the
   * gate, whatever the Authorization header says.
   */
  lemma HubQueryTokenNotRevocationChecked(authorization: string, t: string, headerToken: Option<string>,
                                          bl: Blacklist)
    requires |t| > 0
    ensures BlacklistMiddleware(HubPath, authorization, bl).lookedUp == None
    ensures Pipeline(HubPath, authorization, Some(t), headerToken, bl) == Authenticate(Some(t))
  {
    HubPathUnderHubs();
  }

  /** Outside /hubs, a blacklisted bearer token is refused before authentication sees it. */
  lemma RevokedBearerRejected(path: string, token: string, accessToken: Option<string>,
                              headerToken: Option<string>, bl: Blacklist)
    requires !StartsWithSegments(path, HubsPrefix)
    requires !Contains(token, BearerPrefix)
    requires IsTokenBlacklisted(bl, token)
    ensures Pipeline(path, BearerPrefix + token, accessToken, headerToken, bl) == Rejected
  {
    BearerTokenIsRest(token);
    assert StartsWith(BearerPrefix + token, BearerPrefix) by {
      assert (BearerPrefix + token)[..|BearerPrefix|] == BearerPrefix;
    }
  }

  /** A header "Bearer t" whose t holds no further "Bearer " yields exactly t. */
  lemma BearerTokenIsRest(token: string)
    requires !Contains(token, BearerPrefix)
    ensures RemoveAll(BearerPrefix + token, BearerPrefix) == token
  {
    RemoveAllLeading(BearerPrefix, token);
    RemoveAllAbsent(token, BearerPrefix);
  }

  /** Every occurrence is removed, not only the prefix: "Bearer abBearer cd" is looked up as "abcd". */
  lemma EveryBearerRemoved()
    ensures BlacklistMiddleware("/api/documents", "Bearer abBearer cd", map[]).lookedUp == Some("abcd")
  {
    ApiPathNotUnderHubs();
    HeaderIsBearer();
    HeaderTokenIsAbcd();
  }

  lemma ApiPathNotUnderHubs()
    ensures !StartsWithSegments("/api/documents", HubsPrefix)
  {
    assert "/api/documents"[1] == 'a';
  }

  lemma HeaderIsBearer()
    ensures StartsWith("Bearer abBearer cd", BearerPrefix)
  {
    assert "Bearer abBearer cd"[..|BearerPrefix|] == BearerPrefix;
  }

  lemma HeaderTokenIsAbcd()
    ensures RemoveAll("Bearer abBearer cd", BearerPrefix) == "abcd"
  {
    assert "Bearer abBearer cd" == BearerPrefix + "abBearer cd";
    RemoveAllLeading(BearerPrefix, "abBearer cd");
    RemovesInnerBearer();
  }

  /** The occurrence inside the token is removed too. */
  lemma RemovesInnerBearer()
    ensures RemoveAll("abBearer cd", BearerPrefix) == "abcd"
  {
    var bcd := RemoveAll("bBearer cd", BearerPrefix);
    assert bcd == "bcd" by {
      RemovesTrailingBearer();
      assert !StartsWith("bBearer cd", BearerPrefix);
      assert "bBearer cd"[1..] == "Bearer cd";
    }
    assert !StartsWith("abBearer cd", BearerPrefix);
    assert "abBearer cd"[1..] == "bBearer cd";
    assert RemoveAll("abBearer cd", BearerPrefix) == ['a'] + bcd;
  }

  /** "Bearer cd" loses its prefix and keeps "cd". */
  lemma RemovesTrailingBearer()
    ensures RemoveAll("Bearer cd", BearerPrefix) == "cd"
  {
    assert "Bearer cd" == BearerPrefix + "cd";
    RemoveAllLeading(BearerPrefix, "cd");
    assert !Contains("cd", BearerPrefix);
    RemoveAllAbsent("cd", BearerPrefix);
  }
}

=== FILE: hub.dfy ===
/**
 * The real-time collaboration hub: the room registry (`DocumentUsers`), the
 * framework's group membership, the connection-to-user index
 * (`ConnectionToUser`), and the six hub entry points as transitions that
 * return the new registry together with the messages they send.
 *
 * The two static dictionaries are concurrent in the running system; here they
 * are one sequential state. A message is (event, recipients, payload); the
 * recipients are the connections that receive it when the send happens.
 */
module Hub {
  import opened Wrappers

  type ConnId = string
  type DocId = string
  type UserId = string

  /** The claims of a connection's principal, fixed for the connection's lifetime. */
  datatype Claims = Claims(nameIdentifier: Option<UserId>, displayName: Option<string>)

  /** One entry of the `CurrentUsers` snapshot sent to a joining connection. */
  datatype PresenceEntry = PresenceEntry(userId: Option<UserId>, displayName: string, connectionId: ConnId)

  datatype Payload =
    | Presence(userId: Option<UserId>, displayName: Option<string>, connectionId: ConnId)
    | Snapshot(entries: set<PresenceEntry>)
    | ContentChange(content: string, cursorPosition: int, userId: Option<UserId>,
                    displayName: Option<string>, timestamp: int)
    | CursorMove(userId: Option<UserId>, displayName: Option<string>, position: int)

  datatype Message = Message(event: string, recipients: set<ConnId>, payload: Payload)

  const UserJoined := "UserJoined"
  const UserLeft := "UserLeft"
  const CurrentUsers := "CurrentUsers"
  const ReceiveContentChange := "ReceiveContentChange"
  const ReceiveCursorPosition := "ReceiveCursorPosition"

  /** Display name every snapshot entry carries, whoever the user is. */
  const SnapshotDisplayName := "User"

  /**
   * rooms:  document id -> connections recorded as present (`DocumentUsers`)
   * groups: (document id, connection) pairs of the framework's groups
   * index:  connection -> user id (`ConnectionToUser`)
   */
  datatype Registry = Registry(
    rooms: map<DocId, set<ConnId>>,
    groups: set<(DocId, ConnId)>,
    index: map<ConnId, UserId>)

  /** The registry after an entry point, and the messages it sent, in order. */
  datatype Step = Step(registry: Registry, sent: seq<Message>)

  const Empty := Registry(map[], {}, map[])

  function GroupMembers(groups: set<(DocId, ConnId)>, d: DocId): (r: set<ConnId>)
    ensures forall x :: x in r <==> (d, x) in groups
  {
    set p | p in groups && p.0 == d :: p.1
  }

  function RoomMembers(rooms: map<DocId, set<ConnId>>, d: DocId): set<ConnId> {
    if d in rooms then rooms[d] else {}
  }

  /** `c` is recorded in at least one room. */
  predicate InSomeRoom(rooms: map<DocId, set<ConnId>>, c: ConnId) {
    exists d :: d in rooms && c in rooms[d]
  }

  /** The groups with every membership of `c` dropped, as the framework does when `c` goes away. */
  function WithoutConnection(groups: set<(DocId, ConnId)>, c: ConnId): (r: set<(DocId, ConnId)>)
    ensures forall p :: p in r <==> p in groups && p.1 != c
  {
    set p | p in groups && p.1 != c
  }

  // ---------------------------------------------------------------------------
  // Connect

  /** A new connection is indexed under its NameIdentifier claim, when it has one. */
  function Connect(s: Registry, c: ConnId, claims: Claims): (r: Step)
    ensures r.sent == []
    ensures r.registry.rooms == s.rooms && r.registry.groups == s.groups
    ensures claims.nameIdentifier.Some? ==> Lookup(r.registry.index, c) == claims.nameIdentifier
    ensures claims.nameIdentifier.None? ==> r.registry.index == s.index
    ensures forall x :: x != c ==> Lookup(r.registry.index, x) == Lookup(s.index, x)
  {
    match claims.nameIdentifier
    case Some(u) => Step(s.(index := s.index[c := u]), [])
    case None => Step(s, [])
  }

  // ---------------------------------------------------------------------------
  // Disconnect

  /** `order` lists the rooms' keys, each once: an enumeration order of the dictionary. */
  ghost predicate EnumerationOf(order: seq<DocId>, keys: set<DocId>) {
    && (forall d :: d in keys <==> d in order)
    && (forall i, j :: 0 <= i < j < |order| ==> order[i] != order[j])
  }

  /** The first room in `order` whose member set holds `c`. */
  function FirstRoomContaining(rooms: map<DocId, set<ConnId>>, order: seq<DocId>, c: ConnId): (r: Option<DocId>)
    ensures r.Some? ==> r.value in rooms && c in rooms[r.value] && r.value in order
    ensures r.None? ==> forall d :: d in order && d in rooms ==> c !in rooms[d]
    ensures r.Some? ==> exists i :: (0 <= i < |order| && order[i] == r.value &&
              forall j :: 0 <= j < i ==> !(order[j] in rooms && c in rooms[order[j]]))
  {
    if |order| == 0 then None
    else if order[0] in rooms && c in rooms[order[0]] then Some(order[0])
    else
      var rest := FirstRoomContaining(rooms, order[1..], c);
      if rest.Some? then
        ghost var i :| 0 <= i < |order[1..]| && order[1..][i] == rest.value &&
          forall j :: 0 <= j < i ==> !(order[1..][j] in rooms && c in rooms[order[1..][j]]);
        assert order[i + 1] == rest.value;
        assert forall j :: 0 <= j < i + 1 ==> !(order[j] in rooms && c in rooms[order[j]]) by {
          forall j | 0 <= j < i + 1
            ensures !(order[j] in rooms && c in rooms[order[j]])
          {
            if j > 0 {
              assert order[j] == order[1..][j - 1];
            }
          }
        }
        rest
      else rest
  }

  /** The `UserLeft` message the disconnect handler sends for room `d`. */
  function LeftOnDisconnect(s: Registry, d: DocId, c: ConnId, claims: Claims): Message {
    Message(UserLeft, GroupMembers(s.groups, d) - {c}, Presence(Lookup(s.index, c), claims.displayName, c))
  }

  /** `rooms'` is `rooms` with `c` taken out of room `d` alone, the room dropped if that empties it. */
  ghost predicate RemovedFromOnly(rooms: map<DocId, set<ConnId>>, rooms': map<DocId, set<ConnId>>, d: DocId, c: ConnId)
    requires d in rooms
  {
    && (forall e :: e != d ==> (e in rooms' <==> e in rooms))
    && (forall e :: e != d && e in rooms ==> e in rooms' && rooms'[e] == rooms[e])
    && Cleaned(rooms, rooms', d, c)
  }

  /** Room `d` of `rooms'` is room `d` of `rooms` without `c`, and is gone if that left it empty. */
  ghost predicate Cleaned(rooms: map<DocId, set<ConnId>>, rooms': map<DocId, set<ConnId>>, d: DocId, c: ConnId)
    requires d in rooms
  {
    && (rooms[d] - {c} == {} ==> d !in rooms')
    && (rooms[d] - {c} != {} ==> d in rooms' && rooms'[d] == rooms[d] - {c})
  }

  /**
   * Every transition the disconnect handler may make, whatever order the
   * dictionary enumerates its rooms in: the index entry and all group
   * memberships of `c` go; if `c` is in some room, exactly one such room loses
   * it (and goes if emptied) and one `UserLeft` is sent there; otherwise the
   * rooms stay as they are and nothing is sent.
   */
  ghost predicate DisconnectOutcome(s: Registry, c: ConnId, claims: Claims, r: Step) {
    && r.registry.index == s.index - {c}
    && r.registry.groups == WithoutConnection(s.groups, c)
    && (!InSomeRoom(s.rooms, c) ==> r.registry.rooms == s.rooms && r.sent == [])
    && (InSomeRoom(s.rooms, c) ==>
          exists d :: d in s.rooms && c in s.rooms[d] &&
            RemovedFromOnly(s.rooms, r.registry.rooms, d, c) &&
            r.sent == [LeftOnDisconnect(s, d, c, claims)])
  }

  /**
   * The disconnect handler: it walks the rooms in `order`, removes `c` from the
   * first room that holds it, tells that room's group, drops the room if it
   * became empty, and stops. The index entry is removed in every case, and the
   * framework drops `c` from all its groups.
   */
  function Disconnect(s: Registry, c: ConnId, claims: Claims, order: seq<DocId>): (r: Step)
    requires EnumerationOf(order, s.rooms.Keys)
    ensures DisconnectOutcome(s, c, claims, r)
    ensures |r.sent| <= 1
    ensures c !in r.registry.index
  {
    var groups' := WithoutConnection(s.groups, c);
    var index' := s.index - {c};
    match FirstRoomContaining(s.rooms, order, c)
    case None =>
      Step(Registry(s.rooms, groups', index'), [])
    case Some(d) =>
      var left := s.rooms[d] - {c};
      var rooms' := if left == {} then s.rooms - {d} else s.rooms[d := left];
      Step(Registry(rooms', groups', index'), [LeftOnDisconnect(s, d, c, claims)])
  }

  /** The keys of a finite set, listed once each in some order. */
  ghost function ListOf(keys: set<DocId>): (r: seq<DocId>)
    ensures EnumerationOf(r, keys)
    decreases |keys|
  {
    if keys == {} then []
    else
      var k :| k in keys;
      var rest := ListOf(keys - {k});
      assert forall i :: 0 <= i < |rest| ==> rest[i] != k by {
        forall i | 0 <= i < |rest| ensures rest[i] != k {
          assert rest[i] in rest;
        }
      }
      [k] + rest
  }

  /** Any room holding `c` is the one some enumeration order makes the disconnect handler clean. */
  lemma DisconnectCanPickAnyRoom(s: Registry, c: ConnId, claims: Claims, d: DocId)
    requires d in s.rooms && c in s.rooms[d]
    ensures exists order :: EnumerationOf(order, s.rooms.Keys) &&
              Disconnect(s, c, claims, order).sent == [LeftOnDisconnect(s, d, c, claims)]
  {
    var order := EnumerationStartingWith(s.rooms.Keys, d);
    assert FirstRoomContaining(s.rooms, order, c) == Some(d);
    assert Disconnect(s, c, claims, order).sent == [LeftOnDisconnect(s, d, c, claims)];
  }

  /** Every key of a finite set can come first in some enumeration of it. */
  lemma EnumerationStartingWith(keys: set<DocId>, d: DocId) returns (order: seq<DocId>)
    requires d in keys
    ensures EnumerationOf(order, keys) && |order| > 0 && order[0] == d
  {
    var rest := ListOf(keys - {d});
    order := [d] + rest;
    assert forall i :: 0 <= i < |rest| ==> rest[i] != d by {
      forall i | 0 <= i < |rest| ensures rest[i] != d {
        assert rest[i] in rest;
      }
    }
    assert forall i, j :: 0 <= i < j < |order| ==> order[i] != order[j] by {
      forall i, j | 0 <= i < j < |order| ensures order[i] != order[j] {
        if i > 0 {
          assert order[i] == rest[i - 1] && order[j] == rest[j - 1];
        } else {
          assert order[j] == rest[j - 1];
        }
      }
    }
    assert forall e :: e in keys <==> e in order by {
      forall e ensures e in keys <==> e in order {
        if e != d {
          assert e in order <==> e in rest;
        }
      }
    }
  }

  /** A connection that is in no room loses only its index entry and group memberships, and nothing is sent. */
  lemma DisconnectOutsideRooms(s: Registry, c: ConnId, claims: Claims, order: seq<DocId>)
    requires EnumerationOf(order, s.rooms.Keys)
    requires !InSomeRoom(s.rooms, c)
    ensures Disconnect(s, c, claims, order).sent == []
    ensures Disconnect(s, c, claims, order).registry == Registry(s.rooms, WithoutConnection(s.groups, c), s.index - {c})
  {
  }

  /**
   * A connection in two rooms is still recorded in the second room after its
   * disconnect, and stays there: the room is not deleted, and the next
   * connection to join it receives the dead connection in its snapshot.
   */
  lemma DisconnectLeavesStaleMember()
    ensures var s := Registry(map["a" := {"c"}, "b" := {"c"}], {("a", "c"), ("b", "c")}, map["c" := "u"]);
            var once := Disconnect(s, "c", Claims(Some("u"), None), ["a", "b"]);
            && once.registry.rooms == map["b" := {"c"}]
            && once.registry.index == map[]
            && PresenceEntry(None, SnapshotDisplayName, "c")
                 in Join(once.registry, "x", "b", Claims(Some("v"), None)).sent[1].payload.entries
  {
    var s := Registry(map["a" := {"c"}, "b" := {"c"}], {("a", "c"), ("b", "c")}, map["c" := "u"]);
    var claims := Claims(Some("u"), None);
    assert FirstRoomContaining(s.rooms, ["a", "b"], "c") == Some("a");
    var once := Disconnect(s, "c", claims, ["a", "b"]);
    assert once.registry.rooms == map["b" := {"c"}];
    assert once.registry.index == map[];
    var joined := Join(once.registry, "x", "b", Claims(Some("v"), None));
    assert "c" in joined.registry.rooms["b"];
  }

  /** The rooms of `order` that hold `c`, in that order. */
  function Holding(rooms: map<DocId, set<ConnId>>, order: seq<DocId>, c: ConnId): (h: seq<DocId>)
    ensures forall d :: d in h <==> d in order && d in rooms && c in rooms[d]
    ensures NoRepeats(order) ==> NoRepeats(h)
    decreases |order|
  {
    if |order| == 0 then []
    else
      var rest := Holding(rooms, order[1..], c);
      assert forall d :: d in order[1..] ==> d in order;
      if order[0] in rooms && c in rooms[order[0]] then
        assert NoRepeats(order) ==> order[0] !in order[1..] by {
          if NoRepeats(order) {
            forall k | 0 <= k < |order[1..]| ensures order[1..][k] != order[0] {
              assert order[1..][k] == order[k + 1];
            }
          }
        }
        assert NoRepeats(order) ==> NoRepeats(order[1..]) by {
          if NoRepeats(order) {
            forall i, j | 0 <= i < j < |order[1..]| ensures order[1..][i] != order[1..][j] {
              assert order[1..][i] == order[i + 1] && order[1..][j] == order[j + 1];
            }
          }
        }
        PrependNoRepeats(order[0], rest);
        [order[0]] + rest
      else
        assert forall d :: d in order && d != order[0] ==> d in order[1..] by {
          forall d | d in order && d != order[0] ensures d in order[1..] {
            var k :| 0 <= k < |order| && order[k] == d;
            assert order[1..][k - 1] == d;
          }
        }
        assert NoRepeats(order) ==> NoRepeats(order[1..]) by {
          if NoRepeats(order) {
            forall i, j | 0 <= i < j < |order[1..]| ensures order[1..][i] != order[1..][j] {
              assert order[1..][i] == order[i + 1] && order[1..][j] == order[j + 1];
            }
          }
        }
        rest
  }

  /** No room is listed twice. */
  ghost predicate NoRepeats(order: seq<DocId>) {
    forall i, j :: 0 <= i < j < |order| ==> order[i] != order[j]
  }

  lemma PrependNoRepeats(d: DocId, rest: seq<DocId>)
    ensures NoRepeats(rest) && d !in rest ==> NoRepeats([d] + rest)
  {
    if NoRepeats(rest) && d !in rest {
      var r := [d] + rest;
      forall i, j | 0 <= i < j < |r| ensures r[i] != r[j] {
        assert r[j] == rest[j - 1];
        if i > 0 { assert r[i] == rest[i - 1]; } else { assert rest[j - 1] in rest; }
      }
    }
  }

  /** The cleanup step of the corrected disconnect: `c` leaves every room in `order` that holds it. */
  function CleanRooms(s: Registry, c: ConnId, claims: Claims, order: seq<DocId>): (r: Step)
    requires NoRepeats(order)
    ensures forall d :: d in r.registry.rooms ==> d in s.rooms
    ensures forall d :: d in r.registry.rooms && d !in order ==> r.registry.rooms[d] == s.rooms[d]
    ensures forall d :: d in r.registry.rooms && d in order ==> c !in r.registry.rooms[d]
    ensures forall d :: d in r.registry.rooms ==> r.registry.rooms[d] != {} || s.rooms[d] == {}
    ensures forall d :: d in s.rooms && d !in order ==> d in r.registry.rooms
    ensures forall d :: d in s.rooms && c !in s.rooms[d] ==> d in r.registry.rooms && r.registry.rooms[d] == s.rooms[d]
    ensures r.registry.groups == s.groups && r.registry.index == s.index
    ensures r.sent == [] <==> forall d :: d in order && d in s.rooms ==> c !in s.rooms[d]
    decreases |order|
  {
    if |order| == 0 then Step(s, [])
    else
      var d := order[0];
      if d in s.rooms && c in s.rooms[d] then
        var left := s.rooms[d] - {c};
        var rooms' := if left == {} then s.rooms - {d} else s.rooms[d := left];
        NoRepeatsTail(order);
        var rest := CleanRooms(s.(rooms := rooms'), c, claims, order[1..]);
        Step(rest.registry, [LeftOnDisconnect(s, d, c, claims)] + rest.sent)
      else
        NoRepeatsTail(order);
        CleanRooms(s, c, claims, order[1..])
  }

  lemma NoRepeatsTail(order: seq<DocId>)
    requires NoRepeats(order) && |order| > 0
    ensures NoRepeats(order[1..]) && order[0] !in order[1..]
  {
    forall i, j | 0 <= i < j < |order[1..]| ensures order[1..][i] != order[1..][j] {
      assert order[1..][i] == order[i + 1] && order[1..][j] == order[j + 1];
    }
    forall k | 0 <= k < |order[1..]| ensures order[1..][k] != order[0] {
      assert order[1..][k] == order[k + 1];
    }
  }

  /** `Holding` reads only the listed rooms. */
  lemma {:induction false} HoldingFrame(rooms: map<DocId, set<ConnId>>, rooms': map<DocId, set<ConnId>>,
                                        order: seq<DocId>, c: ConnId)
    requires forall d :: d in order ==> (d in rooms && c in rooms[d] <==> d in rooms' && c in rooms'[d])
    ensures Holding(rooms, order, c) == Holding(rooms', order, c)
    decreases |order|
  {
    if |order| > 0 {
      assert forall d :: d in order[1..] ==> d in order;
      HoldingFrame(rooms, rooms', order[1..], c);
    }
  }

  /** The cleanup takes `c` out of every listed room holding it, dropping the room if that empties it. */
  lemma {:induction false} CleanRoomsCleansEach(s: Registry, c: ConnId, claims: Claims, order: seq<DocId>)
    requires NoRepeats(order)
    ensures forall d :: d in order && d in s.rooms && c in s.rooms[d] ==>
              Cleaned(s.rooms, CleanRooms(s, c, claims, order).registry.rooms, d, c)
    decreases |order|
  {
    if |order| > 0 {
      NoRepeatsTail(order);
      var d := order[0];
      var r := CleanRooms(s, c, claims, order).registry.rooms;
      if d in s.rooms && c in s.rooms[d] {
        var left := s.rooms[d] - {c};
        var rooms' := if left == {} then s.rooms - {d} else s.rooms[d := left];
        CleanRoomsCleansEach(s.(rooms := rooms'), c, claims, order[1..]);
        forall e | e in order && e in s.rooms && c in s.rooms[e] ensures Cleaned(s.rooms, r, e, c) {
          if e != d {
            assert e in order[1..];
          }
        }
      } else {
        CleanRoomsCleansEach(s, c, claims, order[1..]);
        forall e | e in order && e in s.rooms && c in s.rooms[e] ensures Cleaned(s.rooms, r, e, c) {
          assert e != d && e in order[1..];
        }
      }
    }
  }

  /** The cleanup sends one `UserLeft` for each listed room holding `c`, in list order. */
  lemma {:induction false} CleanRoomsSendsEach(s: Registry, c: ConnId, claims: Claims, order: seq<DocId>)
    requires NoRepeats(order)
    ensures var r := CleanRooms(s, c, claims, order);
            var h := Holding(s.rooms, order, c);
            |r.sent| == |h| && forall i :: 0 <= i < |r.sent| ==> r.sent[i] == LeftOnDisconnect(s, h[i], c, claims)
    decreases |order|
  {
    if |order| > 0 {
      NoRepeatsTail(order);
      var d := order[0];
      if d in s.rooms && c in s.rooms[d] {
        var left := s.rooms[d] - {c};
        var rooms' := if left == {} then s.rooms - {d} else s.rooms[d := left];
        var s' := s.(rooms := rooms');
        CleanRoomsSendsEach(s', c, claims, order[1..]);
        HoldingFrame(s.rooms, rooms', order[1..], c);
        SendsEachStep(s, s', c, claims, order);
      } else {
        CleanRoomsSendsEach(s, c, claims, order[1..]);
      }
    }
  }

  /** The step of `CleanRoomsSendsEach` when the first listed room holds `c`. */
  lemma SendsEachStep(s: Registry, s': Registry, c: ConnId, claims: Claims, order: seq<DocId>)
    requires NoRepeats(order) && |order| > 0 && order[0] in s.rooms && c in s.rooms[order[0]]
    requires NoRepeats(order[1..])
    requires s' == s.(rooms := if s.rooms[order[0]] - {c} == {} then s.rooms - {order[0]}
                                else s.rooms[order[0] := s.rooms[order[0]] - {c}])
    requires Holding(s.rooms, order[1..], c) == Holding(s'.rooms, order[1..], c)
    requires var rest := CleanRooms(s', c, claims, order[1..]);
             var h := Holding(s'.rooms, order[1..], c);
             |rest.sent| == |h| && forall i :: 0 <= i < |rest.sent| ==> rest.sent[i] == LeftOnDisconnect(s', h[i], c, claims)
    ensures var r := CleanRooms(s, c, claims, order);
            var h := Holding(s.rooms, order, c);
            |r.sent| == |h| && forall i :: 0 <= i < |r.sent| ==> r.sent[i] == LeftOnDisconnect(s, h[i], c, claims)
  {
    var rest := CleanRooms(s', c, claims, order[1..]);
    var h := Holding(s.rooms, order, c);
    var h' := Holding(s'.rooms, order[1..], c);
    var sent := CleanRooms(s, c, claims, order).sent;
    assert sent == [LeftOnDisconnect(s, order[0], c, claims)] + rest.sent;
    assert h == [order[0]] + h';
    forall i | 0 <= i < |sent| ensures sent[i] == LeftOnDisconnect(s, h[i], c, claims) {
      if i > 0 {
        assert sent[i] == rest.sent[i - 1] == LeftOnDisconnect(s', h'[i - 1], c, claims);
      }
    }
  }

  /**
   * The disconnect the handler evidently intends: every room holding `c`
   * loses it (and goes if emptied), with a `UserLeft` for each, in
   * enumeration order; every other room and every other member stays.
   */
  function DisconnectAll(s: Registry, c: ConnId, claims: Claims, order: seq<DocId>): (r: Step)
    requires EnumerationOf(order, s.rooms.Keys)
    ensures !InSomeRoom(r.registry.rooms, c)
    ensures r.registry.index == s.index - {c}
    ensures r.registry.groups == WithoutConnection(s.groups, c)
    ensures forall d :: d in r.registry.rooms ==> d in s.rooms
    ensures forall d :: d in s.rooms && c !in s.rooms[d] ==> d in r.registry.rooms && r.registry.rooms[d] == s.rooms[d]
    ensures forall d :: d in s.rooms && c in s.rooms[d] ==> Cleaned(s.rooms, r.registry.rooms, d, c)
    ensures var h := Holding(s.rooms, order, c);
            && (forall d :: d in h <==> d in s.rooms && c in s.rooms[d])
            && NoRepeats(h)
            && |r.sent| == |h|
            && (forall i :: 0 <= i < |r.sent| ==> r.sent[i] == LeftOnDisconnect(s, h[i], c, claims))
  {
    CleanRoomsCleansEach(s, c, claims, order);
    CleanRoomsSendsEach(s, c, claims, order);
    var cleaned := CleanRooms(s, c, claims, order);
    Step(Registry(cleaned.registry.rooms, WithoutConnection(s.groups, c), s.index - {c}), cleaned.sent)
  }

  /**
   * After the corrected disconnect the connection is in no room, so no later
   * joiner of any room receives it in its snapshot.
   */
  lemma DisconnectAllLeavesNoStaleMember(s: Registry, c: ConnId, claims: Claims, order: seq<DocId>,
                                         x: ConnId, d: DocId, joinClaims: Claims)
    requires EnumerationOf(order, s.rooms.Keys)
    ensures forall e :: e in Join(DisconnectAll(s, c, claims, order).registry, x, d, joinClaims).sent[1].payload.entries
              ==> e.connectionId != c
  {
    var once := DisconnectAll(s, c, claims, order).registry;
    assert c !in RoomMembers(once.rooms, d);
  }

  // ---------------------------------------------------------------------------
  // Join

  /** The snapshot entries for the connections `others`, resolved through the index. */
  function SnapshotOf(index: map<ConnId, UserId>, others: set<ConnId>): (r: set<PresenceEntry>)
    ensures forall e :: e in r <==>
              e.connectionId in others && e.userId == Lookup(index, e.connectionId) &&
              e.displayName == SnapshotDisplayName
  {
    set x | x in others :: PresenceEntry(Lookup(index, x), SnapshotDisplayName, x)
  }

  /**
   * The join handler: the caller joins the group and the room (created if
   * absent); the group's other members get `UserJoined`; the caller gets a
   * snapshot of the room's other connections.
   */
  function Join(s: Registry, c: ConnId, d: DocId, claims: Claims): (r: Step)
    ensures d in r.registry.rooms && r.registry.rooms[d] == RoomMembers(s.rooms, d) + {c}
    ensures forall e :: e != d ==> (e in r.registry.rooms <==> e in s.rooms)
    ensures forall e :: e != d && e in s.rooms ==> r.registry.rooms[e] == s.rooms[e]
    ensures forall p :: p in r.registry.groups <==> p in s.groups || p == (d, c)
    ensures r.registry.index == s.index
    ensures |r.sent| == 2
    ensures r.sent[0].event == UserJoined
    ensures forall x :: x in r.sent[0].recipients <==> x != c && (d, x) in r.registry.groups
    ensures r.sent[0].payload == Presence(claims.nameIdentifier, claims.displayName, c)
    ensures r.sent[1].event == CurrentUsers && r.sent[1].recipients == {c}
    ensures r.sent[1].payload.Snapshot?
    ensures forall e :: e in r.sent[1].payload.entries <==>
              && e.connectionId in r.registry.rooms[d] && e.connectionId != c
              && e.userId == Lookup(s.index, e.connectionId)
              && e.displayName == SnapshotDisplayName
  {
    var groups' := s.groups + {(d, c)};
    var members := RoomMembers(s.rooms, d) + {c};
    var rooms' := s.rooms[d := members];
    var joined := Message(UserJoined, GroupMembers(groups', d) - {c},
                          Presence(claims.nameIdentifier, claims.displayName, c));
    var current := Message(CurrentUsers, {c}, Snapshot(SnapshotOf(s.index, members - {c})));
    Step(Registry(rooms', groups', s.index), [joined, current])
  }

  /** The snapshot has exactly one entry per other connection recorded in the room. */
  lemma {:induction false} SnapshotSize(index: map<ConnId, UserId>, others: set<ConnId>)
    ensures |SnapshotOf(index, others)| == |others|
    decreases |others|
  {
    if others != {} {
      var x :| x in others;
      var rest := others - {x};
      SnapshotSize(index, rest);
      var e := PresenceEntry(Lookup(index, x), SnapshotDisplayName, x);
      assert SnapshotOf(index, others) == SnapshotOf(index, rest) + {e};
      assert e !in SnapshotOf(index, rest);
    }
  }

  /** The snapshot a joiner receives has one entry per other connection in the room, and never the joiner. */
  lemma JoinSnapshotSize(s: Registry, c: ConnId, d: DocId, claims: Claims)
    ensures var r := Join(s, c, d, claims);
            |r.sent[1].payload.entries| == |RoomMembers(s.rooms, d) - {c}|
    ensures forall e :: e in Join(s, c, d, claims).sent[1].payload.entries ==> e.connectionId != c
  {
    assert (RoomMembers(s.rooms, d) + {c}) - {c} == RoomMembers(s.rooms, d) - {c};
    SnapshotSize(s.index, RoomMembers(s.rooms, d) - {c});
  }

  /** Two tabs of one user already in the room give the joiner two snapshot entries with the same user id. */
  lemma SnapshotNotDeduplicated(s: Registry, c: ConnId, d: DocId, claims: Claims, x1: ConnId, x2: ConnId, u: UserId)
    requires x1 != x2 && x1 != c && x2 != c
    requires x1 in RoomMembers(s.rooms, d) && x2 in RoomMembers(s.rooms, d)
    requires Lookup(s.index, x1) == Some(u) && Lookup(s.index, x2) == Some(u)
    ensures var entries := Join(s, c, d, claims).sent[1].payload.entries;
            PresenceEntry(Some(u), SnapshotDisplayName, x1) in entries &&
            PresenceEntry(Some(u), SnapshotDisplayName, x2) in entries
  {
  }

  /** Joining the same room again changes neither room nor group membership. */
  lemma JoinIdempotent(s: Registry, c: ConnId, d: DocId, claims: Claims)
    ensures var once := Join(s, c, d, claims).registry;
            Join(once, c, d, claims).registry == once
  {
    var once := Join(s, c, d, claims).registry;
    var twice := Join(once, c, d, claims).registry;
    assert twice.groups == once.groups;
    assert twice.rooms == once.rooms;
  }

  // ---------------------------------------------------------------------------
  // Leave

  /**
   * The leave handler: the caller always leaves the group; if the room key
   * exists the caller is taken out of its set (which may be left empty) and the
   * group is sent `UserLeft`, whether or not the caller was a member.
   */
  function Leave(s: Registry, c: ConnId, d: DocId, claims: Claims): (r: Step)
    ensures forall p :: p in r.registry.groups <==> p in s.groups && p != (d, c)
    ensures r.registry.index == s.index
    ensures r.registry.rooms.Keys == s.rooms.Keys
    ensures forall e :: e != d && e in s.rooms ==> r.registry.rooms[e] == s.rooms[e]
    ensures d in s.rooms ==> r.registry.rooms[d] == s.rooms[d] - {c}
    ensures d !in s.rooms <==> r.sent == []
    ensures d in s.rooms ==>
              && |r.sent| == 1 && r.sent[0].event == UserLeft
              && (forall x :: x in r.sent[0].recipients <==> x != c && (d, x) in s.groups)
              && r.sent[0].payload == Presence(claims.nameIdentifier, claims.displayName, c)
  {
    var groups' := s.groups - {(d, c)};
    if d in s.rooms then
      var left := Message(UserLeft, GroupMembers(groups', d),
                          Presence(claims.nameIdentifier, claims.displayName, c));
      Step(Registry(s.rooms[d := s.rooms[d] - {c}], groups', s.index), [left])
    else
      Step(Registry(s.rooms, groups', s.index), [])
  }

  /** The last member leaving a room leaves its key behind with an empty set. */
  lemma LeaveKeepsEmptyRoom(s: Registry, c: ConnId, d: DocId, claims: Claims)
    requires d in s.rooms && s.rooms[d] == {c}
    ensures var r := Leave(s, c, d, claims).registry;
            d in r.rooms && r.rooms[d] == {}
  {
  }

  /** Leaving a room that was just joined restores the membership; only a room the join created stays behind, empty. */
  lemma JoinThenLeave(s: Registry, c: ConnId, d: DocId, claims: Claims)
    requires (d, c) !in s.groups && c !in RoomMembers(s.rooms, d)
    ensures var r := Leave(Join(s, c, d, claims).registry, c, d, claims).registry;
            && r.groups == s.groups
            && r.index == s.index
            && r.rooms == s.rooms[d := RoomMembers(s.rooms, d)]
  {
    var r := Leave(Join(s, c, d, claims).registry, c, d, claims).registry;
    assert r.groups == s.groups;
    assert (RoomMembers(s.rooms, d) + {c}) - {c} == RoomMembers(s.rooms, d);
  }

  // ---------------------------------------------------------------------------
  // Relays

  /** Content changes go to the document's group minus the sender, stamped with the sender's claims and the time. */
  function SendContentChange(s: Registry, c: ConnId, d: DocId, content: string, cursorPosition: int,
                             claims: Claims, now: int): (r: Step)
    ensures r.registry == s
    ensures |r.sent| == 1 && r.sent[0].event == ReceiveContentChange
    ensures forall x :: x in r.sent[0].recipients <==> x != c && (d, x) in s.groups
    ensures r.sent[0].payload == ContentChange(content, cursorPosition, claims.nameIdentifier, claims.displayName, now)
  {
    Step(s, [Message(ReceiveContentChange, GroupMembers(s.groups, d) - {c},
                     ContentChange(content, cursorPosition, claims.nameIdentifier, claims.displayName, now))])
  }

  /** Cursor positions go to the document's group minus the sender, stamped with the sender's claims. */
  function SendCursorPosition(s: Registry, c: ConnId, d: DocId, position: int, claims: Claims): (r: Step)
    ensures r.registry == s
    ensures |r.sent| == 1 && r.sent[0].event == ReceiveCursorPosition
    ensures forall x :: x in r.sent[0].recipients <==> x != c && (d, x) in s.groups
    ensures r.sent[0].payload == CursorMove(claims.nameIdentifier, claims.displayName, position)
  {
    Step(s, [Message(ReceiveCursorPosition, GroupMembers(s.groups, d) - {c},
                     CursorMove(claims.nameIdentifier, claims.displayName, position))])
  }

  // ---------------------------------------------------------------------------
  // Room-versus-group consistency

  /** Every connection recorded in a room is also in that document's group. */
  ghost predicate RoomsWithinGroups(s: Registry) {
    forall d, x :: d in s.rooms && x in s.rooms[d] ==> (d, x) in s.groups
  }

  /** Connect, join, leave and both relays keep recorded presence within the groups. */
  lemma EntryPointsKeepRoomsWithinGroups(s: Registry, c: ConnId, d: DocId, claims: Claims,
                                         content: string, pos: int, now: int)
    requires RoomsWithinGroups(s)
    ensures RoomsWithinGroups(Connect(s, c, claims).registry)
    ensures RoomsWithinGroups(Join(s, c, d, claims).registry)
    ensures RoomsWithinGroups(Leave(s, c, d, claims).registry)
    ensures RoomsWithinGroups(SendContentChange(s, c, d, content, pos, claims, now).registry)
    ensures RoomsWithinGroups(SendCursorPosition(s, c, d, pos, claims).registry)
  {
    var j := Join(s, c, d, claims).registry;
    forall e, x | e in j.rooms && x in j.rooms[e] ensures (e, x) in j.groups {
      if e != d {
        assert j.rooms[e] == s.rooms[e];
      }
    }
    var l := Leave(s, c, d, claims).registry;
    forall e, x | e in l.rooms && x in l.rooms[e] ensures (e, x) in l.groups {
      if e != d {
        assert l.rooms[e] == s.rooms[e];
      }
    }
  }

  /** The corrected disconnect keeps recorded presence within the groups. */
  lemma DisconnectAllKeepsRoomsWithinGroups(s: Registry, c: ConnId, claims: Claims, order: seq<DocId>)
    requires EnumerationOf(order, s.rooms.Keys)
    requires RoomsWithinGroups(s)
    ensures RoomsWithinGroups(DisconnectAll(s, c, claims, order).registry)
  {
    var r := DisconnectAll(s, c, claims, order).registry;
    forall e, x | e in r.rooms && x in r.rooms[e] ensures (e, x) in r.groups {
      CleanRoomsShrinks(s, c, claims, order, e);
    }
  }

  /** The cleanup only ever removes connections from rooms. */
  lemma {:induction false} CleanRoomsShrinks(s: Registry, c: ConnId, claims: Claims, order: seq<DocId>, e: DocId)
    requires NoRepeats(order)
    requires e in CleanRooms(s, c, claims, order).registry.rooms
    ensures e in s.rooms && CleanRooms(s, c, claims, order).registry.rooms[e] <= s.rooms[e]
    decreases |order|
  {
    if |order| > 0 {
      NoRepeatsTail(order);
      var d := order[0];
      if d in s.rooms && c in s.rooms[d] {
        var left := s.rooms[d] - {c};
        var rooms' := if left == {} then s.rooms - {d} else s.rooms[d := left];
        CleanRoomsShrinks(s.(rooms := rooms'), c, claims, order[1..], e);
      } else {
        CleanRoomsShrinks(s, c, claims, order[1..], e);
      }
    }
  }

  /** The disconnect as written can leave a room recording a connection that no group holds. */
  lemma DisconnectBreaksRoomsWithinGroups()
    ensures var s := Registry(map["a" := {"c"}, "b" := {"c"}], {("a", "c"), ("b", "c")}, map[]);
            RoomsWithinGroups(s) &&
            !RoomsWithinGroups(Disconnect(s, "c", Claims(None, None), ["a", "b"]).registry)
  {
    var s := Registry(map["a" := {"c"}, "b" := {"c"}], {("a", "c"), ("b", "c")}, map[]);
    assert FirstRoomContaining(s.rooms, ["a", "b"], "c") == Some("a");
    var r := Disconnect(s, "c", Claims(None, None), ["a", "b"]).registry;
    assert "b" in r.rooms && "c" in r.rooms["b"];
    assert ("b", "c") !in r.groups;
  }

  // ---------------------------------------------------------------------------
  // Replaying joins and leaves on one room

  datatype RoomOp = JoinOp(conn: ConnId, claims: Claims) | LeaveOp(conn: ConnId, claims: Claims)

  function ApplyOp(s: Registry, d: DocId, op: RoomOp): Registry {
    match op
    case JoinOp(x, cl) => Join(s, x, d, cl).registry
    case LeaveOp(x, cl) => Leave(s, x, d, cl).registry
  }

  /** The registry after the operations, applied first to last, on room `d`. */
  function Replay(s: Registry, d: DocId, ops: seq<RoomOp>): Registry
    decreases |ops|
  {
    if |ops| == 0 then s else ApplyOp(Replay(s, d, ops[..|ops| - 1]), d, ops[|ops| - 1])
  }

  /** Whether the last operation by `x` was a join; None if `x` did nothing. */
  function LastByIsJoin(ops: seq<RoomOp>, x: ConnId): Option<bool>
    decreases |ops|
  {
    if |ops| == 0 then None
    else if ops[|ops| - 1].conn == x then Some(ops[|ops| - 1].JoinOp?)
    else LastByIsJoin(ops[..|ops| - 1], x)
  }

  /** Some operation in the sequence is a join. */
  predicate AnyJoin(ops: seq<RoomOp>) {
    exists i :: 0 <= i < |ops| && ops[i].JoinOp?
  }

  /** A run contains a join exactly when its prefix does or its last operation is one. */
  lemma AnyJoinOfSnoc(ops: seq<RoomOp>)
    requires |ops| > 0
    ensures AnyJoin(ops) <==> AnyJoin(ops[..|ops| - 1]) || ops[|ops| - 1].JoinOp?
  {
    var init := ops[..|ops| - 1];
    if AnyJoin(ops) && !ops[|ops| - 1].JoinOp? {
      var i :| 0 <= i < |ops| && ops[i].JoinOp?;
      assert i < |ops| - 1 && init[i] == ops[i];
    }
    if AnyJoin(init) {
      var i :| 0 <= i < |init| && init[i].JoinOp?;
      assert ops[i] == init[i];
    }
  }

  /**
   * After a run of joins and leaves on one room, a connection is recorded in
   * the room, and in its group, exactly when its last operation was a join (or
   * it did nothing and was there before); the room exists exactly when it did
   * before or someone joined, since leaving never deletes it.
   */
  lemma {:induction false} ReplayMembership(s: Registry, d: DocId, ops: seq<RoomOp>, x: ConnId)
    ensures var r := Replay(s, d, ops);
            && (x in RoomMembers(r.rooms, d) <==>
                  LastByIsJoin(ops, x) == Some(true) ||
                  (LastByIsJoin(ops, x) == None && x in RoomMembers(s.rooms, d)))
            && ((d, x) in r.groups <==>
                  LastByIsJoin(ops, x) == Some(true) ||
                  (LastByIsJoin(ops, x) == None && (d, x) in s.groups))
            && (d in r.rooms <==> d in s.rooms || AnyJoin(ops))
            && r.index == s.index
    decreases |ops|
  {
    if |ops| > 0 {
      var init := ops[..|ops| - 1];
      ReplayMembership(s, d, init, x);
      AnyJoinOfSnoc(ops);
    }
  }
}

=== FILE: hubclient.dfy ===
/**
 * The browser's hub session: one connection (or none) and the document it
 * last joined. Each operation guards on the connection's state and returns
 * the new session, the calls it made on connections (start, stop, invoke),
 * and whether it threw. Whether a start or an invoke succeeds is a
 * parameter; the connection's state is whatever the client library reports.
 */
module HubClient {
  import opened Wrappers

  datatype ConnState = Disconnected | Connecting | Connected | Disconnecting | Reconnecting

  /** A connection object: `id` tells apart the connections the session has built. */
  datatype Connection = Connection(id: nat, token: string, state: ConnState)

  datatype Session = Session(connection: Option<Connection>, documentId: Option<string>, built: nat)

  datatype Arg = Text(s: string) | Number(n: int)

  datatype Effect =
    | Start(conn: nat)
    | Stop(conn: nat)
    | Invoke(conn: nat, hubMethod: string, args: seq<Arg>)

  datatype Step = Step(session: Session, effects: seq<Effect>, threw: bool)

  const Initial := Session(None, None, 0)

  /** The guard every hub call shares: a connection exists and reports Connected. */
  predicate IsConnected(s: Session) {
    s.connection.Some? && s.connection.value.state == Connected
  }

  /** JavaScript truthiness of the stored document id: set and not empty. */
  predicate HasDocument(s: Session) {
    s.documentId.Some? && s.documentId.value != ""
  }

  /**
   * connect: nothing to do when already connected; otherwise any existing
   * connection is stopped (its errors swallowed) and a new one, carrying the
   * token, is built and started. A failed start leaves the new connection in
   * place, disconnected, and the call throws. The stored document id is kept.
   */
  function Connect(s: Session, token: string, startOk: bool): (r: Step)
    ensures IsConnected(s) ==> r == Step(s, [], false)
    ensures !IsConnected(s) ==>
              && r.session.connection.Some?
              && r.session.connection.value.id == s.built && r.session.connection.value.token == token
              && r.session.built == s.built + 1
              && (r.session.connection.value.state == Connected <==> startOk)
              && r.threw == !startOk
              && r.effects == (if s.connection.Some? then [Stop(s.connection.value.id)] else []) + [Start(s.built)]
    ensures r.session.documentId == s.documentId
  {
    if IsConnected(s) then Step(s, [], false)
    else
      var stops := if s.connection.Some? then [Stop(s.connection.value.id)] else [];
      var conn := Connection(s.built, token, if startOk then Connected else Disconnected);
      Step(Session(Some(conn), s.documentId, s.built + 1), stops + [Start(s.built)], !startOk)
  }

  /**
   * disconnect: forgets the connection and the document at once, and stops
   * the old connection only if it was not already disconnected. Never throws.
   */
  function Disconnect(s: Session): (r: Step)
    ensures r.session.connection.None? && r.session.documentId.None? && !r.threw
    ensures r.session.built == s.built
    ensures |r.effects| <= 1
    ensures r.effects != [] <==> s.connection.Some? && s.connection.value.state != Disconnected
    ensures r.effects != [] ==> r.effects == [Stop(s.connection.value.id)]
  {
    var stops := if s.connection.Some? && s.connection.value.state != Disconnected
                 then [Stop(s.connection.value.id)] else [];
    Step(Session(None, None, s.built), stops, false)
  }

  /**
   * joinDocument: throws when not connected, changing nothing; otherwise
   * records the document first, then invokes JoinDocument. A failed invoke
   * throws but the document stays recorded.
   */
  function JoinDocument(s: Session, documentId: string, invokeOk: bool): (r: Step)
    ensures !IsConnected(s) ==> r == Step(s, [], true)
    ensures IsConnected(s) ==>
              && r.session == s.(documentId := Some(documentId))
              && r.effects == [Invoke(s.connection.value.id, "JoinDocument", [Text(documentId)])]
              && r.threw == !invokeOk
  {
    if !IsConnected(s) then Step(s, [], true)
    else
      Step(s.(documentId := Some(documentId)),
           [Invoke(s.connection.value.id, "JoinDocument", [Text(documentId)])], !invokeOk)
  }

  /**
   * leaveDocument: silently nothing when not connected; otherwise invokes
   * LeaveDocument and forgets the stored document only if the invoke
   * succeeded. Errors are swallowed.
   */
  function LeaveDocument(s: Session, documentId: string, invokeOk: bool): (r: Step)
    ensures !r.threw
    ensures !IsConnected(s) ==> r == Step(s, [], false)
    ensures IsConnected(s) ==>
              && r.effects == [Invoke(s.connection.value.id, "LeaveDocument", [Text(documentId)])]
              && r.session == (if invokeOk then s.(documentId := None) else s)
  {
    if !IsConnected(s) then Step(s, [], false)
    else
      var s' := if invokeOk then s.(documentId := None) else s;
      Step(s', [Invoke(s.connection.value.id, "LeaveDocument", [Text(documentId)])], false)
  }

  /**
   * sendContentChange: nothing unless connected with a (non-empty) document
   * recorded; then the change goes to the recorded document.
   */
  function SendContentChange(s: Session, content: string, cursorPosition: int, invokeOk: bool): (r: Step)
    ensures r.session == s
    ensures !(IsConnected(s) && HasDocument(s)) ==> r.effects == [] && !r.threw
    ensures IsConnected(s) && HasDocument(s) ==>
              && r.effects == [Invoke(s.connection.value.id, "SendContentChange",
                                      [Text(s.documentId.value), Text(content), Number(cursorPosition)])]
              && r.threw == !invokeOk
  {
    if s.connection.None? || s.documentId.None? || s.documentId.value == "" || s.connection.value.state != Connected
    then Step(s, [], false)
    else
      Step(s, [Invoke(s.connection.value.id, "SendContentChange",
                      [Text(s.documentId.value), Text(content), Number(cursorPosition)])], !invokeOk)
  }

  /** sendCursorPosition: nothing unless connected; the caller names the document. */
  function SendCursorPosition(s: Session, documentId: string, position: int, invokeOk: bool): (r: Step)
    ensures r.session == s
    ensures !IsConnected(s) ==> r.effects == [] && !r.threw
    ensures IsConnected(s) ==>
              && r.effects == [Invoke(s.connection.value.id, "SendCursorPosition", [Text(documentId), Number(position)])]
              && r.threw == !invokeOk
  {
    if !IsConnected(s) then Step(s, [], false)
    else Step(s, [Invoke(s.connection.value.id, "SendCursorPosition", [Text(documentId), Number(position)])], !invokeOk)
  }

  /** Once connected and joined, content changes go to the joined document over the current connection. */
  lemma JoinThenSendTargetsJoined(s: Session, d: string, joinOk: bool, content: string, pos: int, sendOk: bool)
    requires IsConnected(s) && d != ""
    ensures var j := JoinDocument(s, d, joinOk);
            SendContentChange(j.session, content, pos, sendOk).effects ==
              [Invoke(s.connection.value.id, "SendContentChange", [Text(d), Text(content), Number(pos)])]
  {
  }

  /** After disconnect nothing reaches the hub: sends do nothing and a join throws. */
  lemma NothingAfterDisconnect(s: Session, d: string, content: string, pos: int, ok: bool)
    ensures var t := Disconnect(s).session;
            && SendContentChange(t, content, pos, ok).effects == []
            && SendCursorPosition(t, d, pos, ok).effects == []
            && LeaveDocument(t, d, ok).effects == []
            && JoinDocument(t, d, ok) == Step(t, [], true)
  {
  }

  /**
   * A reconnect keeps the recorded document although the new connection has
   * joined nothing: content changes go to that document over the new
   * connection without a new join.
   */
  lemma ReconnectKeepsStaleDocument(s: Session, token: string, content: string, pos: int, ok: bool)
    requires !IsConnected(s) && HasDocument(s)
    ensures var c := Connect(s, token, true);
            && c.session.documentId == s.documentId
            && SendContentChange(c.session, content, pos, ok).effects ==
                 [Invoke(s.built, "SendContentChange", [Text(s.documentId.value), Text(content), Number(pos)])]
  {
  }

  /** Joining the empty document id passes the guard, but content changes are then never sent. */
  lemma EmptyDocumentIdBlocksContent(s: Session, joinOk: bool, content: string, pos: int, ok: bool)
    requires IsConnected(s)
    ensures var j := JoinDocument(s, "", joinOk);
            && j.effects != []
            && SendContentChange(j.session, content, pos, ok).effects == []
  {
  }

  /** Every connection a session holds was built by it: its id is below the count of connections built. */
  ghost predicate Wellformed(s: Session) {
    s.connection.Some? ==> s.connection.value.id < s.built
  }

  /** Every operation keeps a well-formed session well formed, and connection ids are never reused. */
  lemma OperationsKeepWellformed(s: Session, token: string, d: string, content: string, pos: int, ok: bool)
    requires Wellformed(s)
    ensures Wellformed(Connect(s, token, ok).session)
    ensures Connect(s, token, ok).session.built >= s.built
    ensures Wellformed(Disconnect(s).session)
    ensures Wellformed(JoinDocument(s, d, ok).session)
    ensures Wellformed(LeaveDocument(s, d, ok).session)
    ensures Wellformed(SendContentChange(s, content, pos, ok).session)
    ensures Wellformed(SendCursorPosition(s, d, pos, ok).session)
  {
  }
}

=== FILE: paths.dfy ===
/**
 * String and path predicates shared by the request pipeline: the segment-wise
 * prefix test of ASP.NET Core's `PathString.StartsWithSegments`, the ordinal
 * prefix test of `string.StartsWith`, and the remove-every-occurrence form of
 * `string.Replace(old, "")`.
 */
module Paths {

  /** Case folding used by the ordinal ignore-case comparison (ASCII letters only). */
  function FoldCase(c: char): char {
    if 'A' <= c <= 'Z' then (c as int + 32) as char else c
  }

  predicate EqualsIgnoreCase(a: string, b: string) {
    |a| == |b| && forall i :: 0 <= i < |a| ==> FoldCase(a[i]) == FoldCase(b[i])
  }

  /** Ordinal, case-sensitive prefix test. */
  predicate StartsWith(s: string, prefix: string) {
    |prefix| <= |s| && s[..|prefix|] == prefix
  }

  predicate StartsWithIgnoreCase(s: string, prefix: string) {
    |prefix| <= |s| && EqualsIgnoreCase(s[..|prefix|], prefix)
  }

  /**
   * `path` lies under `base`: it begins with `base` (ignoring case) and the
   * match ends at the end of `path` or right before a '/'.
   */
  predicate StartsWithSegments(path: string, base: string) {
    StartsWithIgnoreCase(path, base) && (|path| == |base| || path[|base|] == '/')
  }

  /** `pat` occurs in `s` at index `i`. */
  predicate OccursAt(s: string, pat: string, i: int) {
    0 <= i && i + |pat| <= |s| && s[i..i + |pat|] == pat
  }

  predicate Contains(s: string, pat: string) {
    exists i :: 0 <= i <= |s| - |pat| && OccursAt(s, pat, i)
  }

  /**
   * `s` with every occurrence of `pat` removed, scanning left to right without
   * overlap and without rescanning what the removal joins together.
   */
  function RemoveAll(s: string, pat: string): (r: string)
    requires |pat| > 0
    ensures |r| <= |s|
    decreases |s|
  {
    if |s| == 0 then s
    else if StartsWith(s, pat) then RemoveAll(s[|pat|..], pat)
    else [s[0]] + RemoveAll(s[1..], pat)
  }

  /** Removing a pattern that does not occur leaves the string as it was. */
  lemma {:induction false} RemoveAllAbsent(s: string, pat: string)
    requires |pat| > 0
    requires !Contains(s, pat)
    ensures RemoveAll(s, pat) == s
    decreases |s|
  {
    if |s| == 0 {
    } else {
      assert !StartsWith(s, pat) by {
        if StartsWith(s, pat) {
          assert OccursAt(s, pat, 0);
        }
      }
      assert !Contains(s[1..], pat) by {
        if Contains(s[1..], pat) {
          var i :| 0 <= i <= |s[1..]| - |pat| && OccursAt(s[1..], pat, i);
          assert s[1..][i..i + |pat|] == s[i + 1..i + 1 + |pat|];
          assert OccursAt(s, pat, i + 1);
        }
      }
      RemoveAllAbsent(s[1..], pat);
    }
  }

  /** Removing a pattern from a string that starts with it drops that occurrence first. */
  lemma RemoveAllLeading(pat: string, t: string)
    requires |pat| > 0
    ensures RemoveAll(pat + t, pat) == RemoveAll(t, pat)
  {
    assert StartsWith(pat + t, pat);
    assert (pat + t)[|pat|..] == t;
  }

  /** A character that does not start an occurrence is kept, and the rest is processed alone. */
  lemma RemoveAllKeepsFirst(c: char, t: string, pat: string)
    requires |pat| > 0
    requires !StartsWith([c] + t, pat)
    ensures RemoveAll([c] + t, pat) == [c] + RemoveAll(t, pat)
  {
    assert ([c] + t)[1..] == t;
  }

  /** Every path under a segment-prefix of the form `base + rest`, where `rest` starts a new segment, is under `base`. */
  lemma {:induction false} UnderLongerBase(path: string, base: string, rest: string)
    requires |rest| > 0 && rest[0] == '/'
    requires StartsWithSegments(path, base + rest)
    ensures StartsWithSegments(path, base)
  {
    var full := base + rest;
    assert path[|base|] == full[|base|] by {
      assert FoldCase(path[..|full|][|base|]) == FoldCase(full[|base|]);
      assert full[|base|] == '/';
    }
    assert path[..|base|] == path[..|full|][..|base|];
    forall i | 0 <= i < |base|
      ensures FoldCase(path[..|base|][i]) == FoldCase(base[i])
    {
      assert path[..|base|][i] == path[..|full|][i];
      assert full[i] == base[i];
    }
  }
}

=== FILE: registervalidation.dfy ===
/**
 * The validation a registration request passes before the service sees it.
 * Each field is `None` when the JSON value is null. Required fields must be
 * present and not blank; the length bounds count UTF-16 code units, as
 * `string.Length` does; the e-mail check is the framework's single-'@' rule.
 * DisplayName is required only because it is a non-nullable reference type,
 * and carries no length bound.
 */
module RegisterValidation {
  import opened Wrappers
  import opened Text
  import opened Store

  datatype RegisterRequest = RegisterRequest(
    username: Option<string>, email: Option<string>, password: Option<string>, displayName: Option<string>)

  const MinUsernameLength := 3
  const MinPasswordLength := 8
  const MaxPasswordLength := 100

  /** `[Required]` on a string: present and not empty or white space only. */
  predicate Required(v: Option<string>) {
    v.Some? && !IsBlank(v.value)
  }

  /** `[StringLength(max, MinimumLength = min)]`: a missing value passes. */
  predicate LengthBetween(v: Option<string>, min: nat, max: nat) {
    v.None? || min <= Utf16Length(v.value) <= max
  }

  /** Index of the first '@' in `s`, or -1. */
  function IndexOfAt(s: string): (i: int)
    ensures -1 <= i < |s|
    ensures i >= 0 ==> s[i] == '@' && forall j :: 0 <= j < i ==> s[j] != '@'
    ensures i == -1 ==> forall j :: 0 <= j < |s| ==> s[j] != '@'
  {
    if s == [] then -1
    else if s[0] == '@' then 0
    else var k := IndexOfAt(s[1..]); if k == -1 then -1 else k + 1
  }

  /** Index of the last '@' in `s`, or -1. */
  function LastIndexOfAt(s: string): (i: int)
    ensures -1 <= i < |s|
    ensures i >= 0 ==> s[i] == '@' && forall j :: i < j < |s| ==> s[j] != '@'
    ensures i == -1 ==> forall j :: 0 <= j < |s| ==> s[j] != '@'
  {
    if s == [] then -1
    else if s[|s| - 1] == '@' then |s| - 1
    else LastIndexOfAt(s[..|s| - 1])
  }

  /** `[EmailAddress]`: the first '@' is also the last, and is neither the first nor the last character. */
  predicate IsEmailAddress(v: Option<string>) {
    v.None? ||
    var i := IndexOfAt(v.value);
    i > 0 && i != |v.value| - 1 && i == LastIndexOfAt(v.value)
  }

  /** Exactly one '@', with something on each side of it. */
  ghost predicate OneInnerAt(s: string) {
    exists i :: 0 < i < |s| - 1 && s[i] == '@' && forall j :: 0 <= j < |s| && s[j] == '@' ==> j == i
  }

  /** The framework's index arithmetic means exactly one '@' with something on each side. */
  lemma IsEmailAddressMeansOneInnerAt(s: string)
    ensures IsEmailAddress(Some(s)) <==> OneInnerAt(s)
  {
    var i := IndexOfAt(s);
    if IsEmailAddress(Some(s)) {
      assert LastIndexOfAt(s) == i;
      assert forall j :: 0 <= j < |s| && s[j] == '@' ==> j == i;
      assert 0 < i < |s| - 1 && s[i] == '@';
    }
    if OneInnerAt(s) {
      var k :| 0 < k < |s| - 1 && s[k] == '@' && forall j :: 0 <= j < |s| && s[j] == '@' ==> j == k;
      assert i == k;
      var l := LastIndexOfAt(s);
      assert l == k;
    }
  }

  /** The attributes of the registration request, all of which must pass. */
  predicate IsValid(req: RegisterRequest) {
    && Required(req.username) && LengthBetween(req.username, MinUsernameLength, MaxUsernameLength)
    && Required(req.email) && IsEmailAddress(req.email) && LengthBetween(req.email, 0, MaxEmailLength)
    && Required(req.password) && LengthBetween(req.password, MinPasswordLength, MaxPasswordLength)
    && Required(req.displayName)
  }

  /** What a valid request guarantees about its values. */
  lemma ValidRequestBounds(req: RegisterRequest)
    requires IsValid(req)
    ensures req.username.Some? && 3 <= Utf16Length(req.username.value) <= 15
    ensures req.email.Some? && Utf16Length(req.email.value) <= 30 && OneInnerAt(req.email.value)
    ensures req.password.Some? && 8 <= Utf16Length(req.password.value) <= 100
    ensures req.displayName.Some? && |req.displayName.value| > 0
    ensures |req.username.value| <= MaxUsernameLength && |req.email.value| <= MaxEmailLength
  {
    IsEmailAddressMeansOneInnerAt(req.email.value);
  }

  /** The user row a request describes. */
  function UserOf(req: RegisterRequest, passwordHash: string, now: int): (u: User)
    requires req.username.Some? && req.email.Some? && req.displayName.Some?
    ensures u.username == req.username.value && u.email == req.email.value
    ensures u.displayName == req.displayName.value && u.passwordHash == passwordHash
  {
    User(req.username.value, req.email.value, passwordHash, req.displayName.value, now)
  }

  /** A valid request whose display name is 101 characters long: the validator lets it through, but its row does not fit. */
  lemma ValidRequestMayNotFit()
    ensures var req := RegisterRequest(Some("ann"), Some("a@b.c"), Some("password"), Some(LongDisplayName));
            IsValid(req) && !UserFits(UserOf(req, "", 0))
  {
    SampleFieldsValid();
    assert LongDisplayName[0] == 'x';
  }

  /** The other three fields of that request pass their attributes. */
  lemma SampleFieldsValid()
    ensures Required(Some("ann")) && LengthBetween(Some("ann"), MinUsernameLength, MaxUsernameLength)
    ensures Required(Some("a@b.c")) && IsEmailAddress(Some("a@b.c")) && LengthBetween(Some("a@b.c"), 0, MaxEmailLength)
    ensures Required(Some("password")) && LengthBetween(Some("password"), MinPasswordLength, MaxPasswordLength)
  {
    assert "ann"[0] == 'a' && "a@b.c"[0] == 'a' && "password"[0] == 'p';
    assert IndexOfAt("a@b.c") == 1;
    assert LastIndexOfAt("a@b.c") == 1 by {
      assert "a@b.c"[..4] == "a@b.";
      assert "a@b."[..3] == "a@b";
    }
  }

  /** A display name of 101 characters, one more than its column holds. */
  const LongDisplayName: string := seq(101, _ => 'x')

  /** The check the column evidently calls for: the validator with DisplayName bounded by 100. */
  predicate IsValidForSchema(req: RegisterRequest) {
    IsValid(req) && LengthBetween(req.displayName, 0, MaxDisplayNameLength)
  }

  /** Every request the bounded validator accepts describes a row that fits the user table's columns. */
  lemma ValidForSchemaFits(req: RegisterRequest, passwordHash: string, now: int)
    requires IsValidForSchema(req)
    ensures UserFits(UserOf(req, passwordHash, now))
  {
    ValidRequestBounds(req);
  }
}

=== FILE: store.dfy ===
/**
 * The relational store behind the services: users, documents, shares and
 * versions keyed by their ids, with the schema's rules as invariants (unique
 * usernames and emails, one share per document and user, unique version
 * numbers per document, bounded column lengths, references that resolve) and
 * its cascading deletes as functions.
 */
module Store {

  type UserId = nat
  type DocId = nat
  type ShareId = nat
  type VersionId = nat

  datatype Permission = Read | Edit

  datatype User = User(username: string, email: string, passwordHash: string, displayName: string, createdAt: int)

  datatype Document = Document(ownerId: UserId, title: string, content: string, characterCount: int,
                               createdAt: int, updatedAt: int)

  datatype Share = Share(documentId: DocId, userId: UserId, permission: Permission, sharedAt: int)

  datatype Version = Version(documentId: DocId, content: string, createdByUserId: UserId, createdAt: int,
                             versionNumber: int)

  datatype Db = Db(users: map<UserId, User>, documents: map<DocId, Document>,
                   shares: map<ShareId, Share>, versions: map<VersionId, Version>)

  const MaxUsernameLength := 15
  const MaxEmailLength := 30
  const MaxDisplayNameLength := 100
  const MaxTitleLength := 255

  ghost predicate UniqueUsernames(db: Db) {
    forall a, b :: a in db.users && b in db.users && db.users[a].username == db.users[b].username ==> a == b
  }

  ghost predicate UniqueEmails(db: Db) {
    forall a, b :: a in db.users && b in db.users && db.users[a].email == db.users[b].email ==> a == b
  }

  /** At most one share per (document, user) pair. */
  ghost predicate UniqueSharePairs(db: Db) {
    forall a, b ::
      (a in db.shares && b in db.shares &&
       db.shares[a].documentId == db.shares[b].documentId && db.shares[a].userId == db.shares[b].userId) ==> a == b
  }

  /** At most one version per (document, version number) pair. */
  ghost predicate UniqueVersionNumbers(db: Db) {
    forall a, b ::
      (a in db.versions && b in db.versions &&
       db.versions[a].documentId == db.versions[b].documentId &&
       db.versions[a].versionNumber == db.versions[b].versionNumber) ==> a == b
  }

  /** Every foreign key names an existing row. */
  ghost predicate ReferencesResolve(db: Db) {
    && (forall d :: d in db.documents ==> db.documents[d].ownerId in db.users)
    && (forall s :: s in db.shares ==> db.shares[s].documentId in db.documents && db.shares[s].userId in db.users)
    && (forall v :: v in db.versions ==> db.versions[v].documentId in db.documents)
  }

  predicate UserFits(u: User) {
    |u.username| <= MaxUsernameLength && |u.email| <= MaxEmailLength && |u.displayName| <= MaxDisplayNameLength
  }

  ghost predicate LengthsFit(db: Db) {
    && (forall u :: u in db.users ==> UserFits(db.users[u]))
    && (forall d :: d in db.documents ==> |db.documents[d].title| <= MaxTitleLength)
  }

  /** The rules the schema makes the database enforce. */
  ghost predicate Valid(db: Db) {
    && UniqueUsernames(db) && UniqueEmails(db)
    && UniqueSharePairs(db) && UniqueVersionNumbers(db)
    && ReferencesResolve(db) && LengthsFit(db)
  }

  const EmptyDb := Db(map[], map[], map[], map[])

  /** A service operation's result together with the store it leaves behind. */
  datatype Outcome<T> = Outcome(db: Db, result: T)

  /** Deleting a document takes its shares and versions with it. */
  function DeleteDocument(db: Db, d: DocId): (r: Db)
    ensures d !in r.documents
    ensures forall e :: e in r.documents <==> e in db.documents && e != d
    ensures forall s :: s in r.shares <==> s in db.shares && db.shares[s].documentId != d
    ensures forall v :: v in r.versions <==> v in db.versions && db.versions[v].documentId != d
    ensures r.users == db.users
    ensures SubStore(r, db)
  {
    Db(db.users,
       map e | e in db.documents && e != d :: db.documents[e],
       map s | s in db.shares && db.shares[s].documentId != d :: db.shares[s],
       map v | v in db.versions && db.versions[v].documentId != d :: db.versions[v])
  }

  /**
   * Deleting a user takes the documents they own and the shares granted to
   * them, and, through those documents, the documents' shares and versions.
   */
  function DeleteUser(db: Db, u: UserId): (r: Db)
    ensures forall x :: x in r.users <==> x in db.users && x != u
    ensures forall d :: d in r.documents <==> d in db.documents && db.documents[d].ownerId != u
    ensures forall s :: s in r.shares <==>
              s in db.shares && db.shares[s].userId != u &&
              db.shares[s].documentId in db.documents && db.documents[db.shares[s].documentId].ownerId != u
    ensures forall v :: v in r.versions <==>
              v in db.versions &&
              db.versions[v].documentId in db.documents && db.documents[db.versions[v].documentId].ownerId != u
    ensures SubStore(r, db)
  {
    var kept := set d | d in db.documents && db.documents[d].ownerId != u;
    Db(map x | x in db.users && x != u :: db.users[x],
       map d | d in kept :: db.documents[d],
       map s | s in db.shares && db.shares[s].userId != u && db.shares[s].documentId in kept :: db.shares[s],
       map v | v in db.versions && db.versions[v].documentId in kept :: db.versions[v])
  }

  /** Every row a delete keeps is kept unchanged. */
  ghost predicate SubStore(r: Db, db: Db) {
    && (forall x :: x in r.users ==> x in db.users && r.users[x] == db.users[x])
    && (forall d :: d in r.documents ==> d in db.documents && r.documents[d] == db.documents[d])
    && (forall s :: s in r.shares ==> s in db.shares && r.shares[s] == db.shares[s])
    && (forall v :: v in r.versions ==> v in db.versions && r.versions[v] == db.versions[v])
  }

  /** Dropping rows keeps uniqueness and lengths; only the references need checking. */
  lemma SubStoreKeepsValid(r: Db, db: Db)
    requires Valid(db) && SubStore(r, db) && ReferencesResolve(r)
    ensures Valid(r)
  {
    assert UniqueUsernames(r);
    assert UniqueEmails(r);
    assert UniqueSharePairs(r);
    assert UniqueVersionNumbers(r);
    assert LengthsFit(r);
  }

  /** The cascade leaves no share or version pointing at the deleted document. */
  lemma DeleteDocumentKeepsValid(db: Db, d: DocId)
    requires Valid(db)
    ensures Valid(DeleteDocument(db, d))
  {
    var r := DeleteDocument(db, d);
    assert ReferencesResolve(r);
    SubStoreKeepsValid(r, db);
  }

  /** The cascade leaves no document, share or version pointing at the deleted user or at a document deleted with them. */
  lemma DeleteUserKeepsValid(db: Db, u: UserId)
    requires Valid(db)
    ensures Valid(DeleteUser(db, u))
  {
    var r := DeleteUser(db, u);
    assert ReferencesResolve(r);
    SubStoreKeepsValid(r, db);
  }
}

=== FILE: text.dfy ===
/**
 * Strings as the .NET and JavaScript runtimes see them. A Dafny `string` is a
 * sequence of Unicode scalar values; both runtimes measure and index strings
 * in UTF-16 code units, where a character above U+FFFF takes two (a surrogate
 * pair). Also the set of characters `char.IsWhiteSpace` accepts.
 */
module Text {

  /** Number of UTF-16 code units needed for `c`. */
  function Utf16Width(c: char): (n: nat)
    ensures n == 1 <==> (c as int) < 0x1_0000
    ensures n == 1 || n == 2
  {
    if (c as int) < 0x1_0000 then 1 else 2
  }

  /** A string's length in UTF-16 code units (`string.Length` in C#, `.length` in JavaScript). */
  function Utf16Length(s: string): (n: nat)
    ensures |s| <= n <= 2 * |s|
    ensures (forall i :: 0 <= i < |s| ==> (s[i] as int) < 0x1_0000) ==> n == |s|
  {
    if s == [] then 0 else Utf16Width(s[0]) + Utf16Length(s[1..])
  }

  /** The UTF-16 encoding of `s`, one code unit per element (`charCodeAt`). */
  function CodeUnits(s: string): (r: seq<int>)
    ensures |r| == Utf16Length(s)
    ensures forall i :: 0 <= i < |r| ==> 0 <= r[i] < 0x1_0000
  {
    if s == [] then []
    else
      var c := s[0] as int;
      var head := if c < 0x1_0000 then [c]
                  else [0xD800 + (c - 0x1_0000) / 0x400, 0xDC00 + (c - 0x1_0000) % 0x400];
      head + CodeUnits(s[1..])
  }

  /** A character outside the Basic Multilingual Plane is one surrogate pair, high half first. */
  lemma AstralIsSurrogatePair(c: char)
    requires (c as int) >= 0x1_0000
    ensures var r := CodeUnits([c]);
            && |r| == 2
            && 0xD800 <= r[0] < 0xDC00 && 0xDC00 <= r[1] < 0xE000
            && (r[0] - 0xD800) * 0x400 + (r[1] - 0xDC00) + 0x1_0000 == c as int
  {
    assert [c][1..] == [];
  }

  /** The encoding of a concatenation is the concatenation of the encodings. */
  lemma {:induction false} CodeUnitsAppend(s: string, t: string)
    ensures CodeUnits(s + t) == CodeUnits(s) + CodeUnits(t)
  {
    if s == [] {
      assert s + t == t;
    } else {
      assert (s + t)[0] == s[0];
      assert (s + t)[1..] == s[1..] + t;
      CodeUnitsAppend(s[1..], t);
    }
  }

  /** The characters `char.IsWhiteSpace` accepts: Unicode's White_Space property. */
  predicate IsWhiteSpace(c: char) {
    var n := c as int;
    || 0x09 <= n <= 0x0D || n == 0x20 || n == 0x85 || n == 0xA0 || n == 0x1680
    || 0x2000 <= n <= 0x200A || n == 0x2028 || n == 0x2029 || n == 0x202F || n == 0x205F || n == 0x3000
  }

  /** `string.IsNullOrWhiteSpace` on a non-null string. */
  predicate IsBlank(s: string)
  {
    forall i :: 0 <= i < |s| ==> IsWhiteSpace(s[i])
  }
}

=== FILE: wrappers.dfy ===
/** Option, the model's stand-in for the source's nullable references and values. */
module Wrappers {

  datatype Option<+T> = None | Some(value: T) {

    /** Returns the value held in Some, or the default if None. */
    function GetOr(default: T): T {
      match this
      case Some(v) => v
      case None => default
    }
  }

  /** A dictionary lookup that yields null (None) for a missing key, as `GetValueOrDefault` does. */
  function Lookup<K, V>(m: map<K, V>, k: K): (r: Option<V>)
    ensures r.Some? <==> k in m
    ensures r.Some? ==> r.value == m[k]
  {
    if k in m then Some(m[k]) else None
  }
}
